=== FILE: README.md ===
# Input back-channel of the streaming server

This project models, in Dafny, the input back-channel of a game-streaming
server. Viewers send pointer, touch and key input back to the host as 13-byte
records. The host turns the records into writes on a virtual multi-touch
screen.

- **Wire** (`wire.dfy`) is the record format `"<BIhhhh"`. It has a u8 kind, a
  little-endian u32 timestamp and four little-endian i16 arguments. It covers
  the desktop receiver's encoder `make_event`, the browser's DataView encoder
  `mkEvt`, and Python's `struct.pack`/`unpack_from`.
- **Injector** (`injector.dfy`) is `handle_event`, written as a pure function
  from the active-slot set and a record to the new set and the ordered device
  primitives. The primitives are the `dev.write` calls and `dev.syn()`. The
  UDP input server and the WebRTC server's `InputInjector` carry identical
  copies of this code.
- **Device** (`device.dfy`) is the last-written-value view of the virtual
  touchscreen. It is used to state that the injector's active set agrees
  with the contacts on the device.
- **Transport** (`transport.dfy`) covers the greedy decode loop, the input
  server's `recvfrom(256)`, the data-channel handler and the WebSocket relay
  filter.
- **SlotAllocator** (`slot_allocator.dfy`) is the browser's
  `allocSlot`/`freeSlot` and its touch handlers.
- **Pointer** (`pointer.dfy`) is the desktop receiver's input side:
  `map_mouse_coords`, `build_keymap`, and the pygame event pump with its
  left-button `touching` flag.
- **Fmp4** (`fmp4.dfy`) is the browser receiver's `find_moof_offset` box
  scan, together with the init-segment split in `push`.
- **EndToEnd** (`end_to_end.dfy`) connects the desktop receiver's packets to
  the injector.
- **Wrappers** (`wrappers.dfy`) holds `Option`.

Points where the code does something a reader might not expect:

- Positions are never clamped by the injector (`Device.PositionsNotClamped`).
- Key codes are not filtered (`Device.KeyEdgeCanPressTouch`).
- Nothing is released when a viewer disconnects. One injector serves every
  viewer (`Injector.StaleContactMasksTap`).
- The touch-button edges are not strict transitions
  (`Injector.RepeatedDownRepeatsPress`, `Injector.UpOnEmptyRepeatsRelease`).

Python's float division in `map_mouse_coords` is modelled as exact integer
division truncated toward zero, which is what `int()` does to the quotient.
pygame reports window positions and sizes as C ints, so for positions and
sizes of magnitude below 2^31 both operands are integers far below 2^53 and
the float quotient is correctly rounded. The model's integers are unbounded;
the equivalence is claimed only within that bound. When the exact quotient is not an integer, it is at least
`1 / window size` away from the nearest integer, which is far more than the
rounding error. So truncating the float quotient and truncating the exact
quotient give the same result.

## Model

| member | source | states |
|---|---|---|
| Wire.Unpack | input_server.py:190-192 | `unpack_from` takes the kind from byte `o`, reads the timestamp as a little-endian u32 at `o + 1` and the arguments as little-endian i16 at `o + 5`, `o + 7`, `o + 9` and `o + 11` (low byte first), and gives an argument its sign from its high byte |
| Wire.Pack | input_server.py:25-28 | a record packed with `"<BIhhhh"` is 13 bytes and unpacks to the same event |
| Wire.PackUnpack | input_server.py:25-28 | every 13-byte string is the packing of the event it unpacks to, so no record is invalid or redundant |
| Wire.PackInjective | input_server.py:25-28 | two different events never pack to the same bytes |
| Wire.MakeEvent | receiver.py:65-67 | `make_event` returns 13 bytes that decode to the given kind and arguments, with the timestamp reduced modulo 2^32 |
| Wire.ToInt16 | webrtc_stream.py:153-154 | `setInt16` stores a value congruent to its argument modulo 2^16, and stores in-range values unchanged |
| Wire.MkEvt | webrtc_stream.py:149-156 | `mkEvt` writes the kind at byte 0, the timestamp modulo 2^32 at byte 1, x, y and the slot as i16 at bytes 5, 7 and 9 (an absent slot as 0), and 0 at byte 11 |
| Wire.MkEvtAgreesWithMakeEvent | webrtc_stream.py:149-156 | for in-range values the browser's record decodes to its inputs and equals the desktop receiver's record byte for byte |
| Injector.ClampSlot | input_server.py:108 | the applied slot always lies in [0, 9], equals `arg3` when `arg3` is in range, and is 0 below the range and 9 above it |
| Injector.HandleEvent | input_server.py:102-151 | DOWN adds the slot and UP removes it, and every other kind keeps the set; slots stay in range; known kinds end with exactly one barrier and unknown kinds write nothing; pointer kinds first select the slot |
| Injector.HandleEventWrites | input_server.py:110-151 | what one event writes, channel by channel: the slot; the tracking id on DOWN and -1 on UP; unclamped positions on MOVE and DOWN, mirrored only for slot 0; BTN_TOUCH 1 or 0 exactly when no slot other than the touched one was active (which includes an empty set); the key edge on the unfiltered code |
| Injector.PressBeforeMirror | input_server.py:122-132 | in a pressing DOWN on slot 0, BTN_TOUCH is written after the MT position and before the single-touch mirror |
| Injector.ApplyAll | input_server.py:187-196 | applying a run of records gains only slots of its DOWN records, loses only slots of its UP records, and keeps slots in range |
| Injector.ApplyAllAppend | input_server.py:178-196 | how records are split into datagrams does not matter: two runs applied in turn equal their concatenation |
| Injector.DownsWhileTouching | input_server.py:122-128 | further fingers landing on free distinct slots while one is down never write BTN_TOUCH |
| Injector.DistinctDownsPressOnce | input_server.py:120-132 | fingers landing on distinct slots of an untouched screen write BTN_TOUCH exactly once, a press, and leave exactly their slots active |
| Injector.MatchingUpsReleaseOnce | input_server.py:134-141 | lifting every active finger from its own slot writes BTN_TOUCH exactly once, a release, and leaves no slot active |
| Injector.GesturePressesAndReleasesOnce | input_server.py:120-141 | a whole multi-finger gesture writes BTN_TOUCH exactly twice, press then release, and ends untouched |
| Injector.SingleTap | input_server.py:120-141 | the exact writes of a tap on slot 0, in order |
| Injector.RepeatedDownRepeatsPress | input_server.py:122-128 | a repeated DOWN on the only active slot writes the press again |
| Injector.UpOnEmptyRepeatsRelease | input_server.py:136-140 | an UP with no slot active writes the release again |
| Injector.StaleContactMasksTap | webrtc_stream.py:351-370 | a contact left active by an earlier viewer suppresses both edges of the next viewer's tap and stays active |
| Device.ReplayHandleEvent | input_server.py:110-151 | replaying the writes of one event on the device gives the event's field-by-field effect |
| Device.HandleEventKeepsConsistent | input_server.py:98-151 | every event except a key edge on BTN_TOUCH's code keeps the active set equal to the slots holding a contact, and BTN_TOUCH held exactly when a slot is active |
| Device.ApplyAllKeepsConsistent | input_server.py:178-196 | that agreement holds across any run of records |
| Device.KeyEdgeCanPressTouch | input_server.py:143-146 | a KEY_DOWN carrying BTN_TOUCH's code holds the touch button with no slot active |
| Device.DuplicateEventHarmless | input_server.py:120-141 | applying a record a second time changes neither the set nor the device |
| Device.DeclaredAxis | input_server.py:71-85 | exactly the six absolute channels have a declared range, each non-empty; the slot and tracking-id axes end at slot 9, and only the tracking id goes below 0, to -1 |
| Device.SlotAxesInRange | input_server.py:77-80 | slot and tracking-id writes always lie in the declared axis ranges |
| Device.PositionsNotClamped | input_server.py:110-117 | positions are passed through unclamped, beyond the declared axis maximum |
| Transport.Records | input_server.py:187-193 | the records of a buffer are one per whole 13 bytes; trailing bytes are dropped |
| Transport.RecordAt | input_server.py:189-193 | record `i` is the one unpacked at offset `13 * i` |
| Transport.RecordCount | input_server.py:187-193 | a buffer holds `len div 13` records |
| Transport.DecodeAll | input_server.py:184-193 | the decode loop yields exactly the buffer's records, and nothing for a buffer shorter than a record |
| Transport.RecordsOfEncoded | input_server.py:187-193 | decoding encoded events followed by fewer than 13 stray bytes returns exactly those events |
| Transport.Receive | input_server.py:180 | `recvfrom(256)` keeps the whole datagram when it fits and exactly its first 256 bytes otherwise |
| Transport.ServeDatagram | input_server.py:178-196 | a datagram shorter than a record changes nothing and writes nothing |
| Transport.DatagramRecordBound | input_server.py:180-189 | at most 19 records of a datagram reach the injector |
| Transport.OnDataChannelMessage | webrtc_stream.py:596-613 | a missing or short payload, or a missing injector, applies nothing; the injector's presence never changes |
| Transport.AdaptersAgree | webrtc_stream.py:596-613 | for payloads that fit the UDP buffer, the data channel and the UDP server inject the same |
| Transport.ReceiveKeepsPrefix | input_server.py:180 | the UDP server decodes a prefix of what the data channel decodes from the same bytes |
| Transport.AdaptersDifferBeyondBuffer | webrtc_stream.py:596-613 | 20 encoded events sent as one payload are all applied by the data-channel handler, while the UDP server (input_server.py:180) applies only the first 19 |
| Transport.RelayFrame | web_receiver.py:230-233 | a message is forwarded unchanged exactly when it is binary, a sender is configured and it holds at least 13 bytes |
| Transport.RelayedFrameDecodes | web_receiver.py:231-233 | every relayed frame yields between 1 and 19 records at the input server |
| SlotAllocator.FirstFree | webrtc_stream.py:137-139 | the scan returns the lowest free slot, or -1 when every slot is used |
| SlotAllocator.AllocSlot | webrtc_stream.py:135-141 | a mapped id gets its slot back unchanged; otherwise it takes the lowest free slot, or gets -1 with nothing changed when all ten are used |
| SlotAllocator.FreeSlot | webrtc_stream.py:142-145 | freeing an unmapped id changes nothing; a mapped id loses its mapping and only its slot is freed |
| SlotAllocator.AllocKeepsWf | webrtc_stream.py:131-141 | allocation keeps "slot used iff some id maps to it, one id per slot" and returns a slot held by the id alone |
| SlotAllocator.FreeKeepsWf | webrtc_stream.py:142-145 | freeing keeps the same invariant |
| SlotAllocator.AllocThenFree | webrtc_stream.py:135-145 | a touch that starts and ends leaves the allocator as it was |
| SlotAllocator.TouchStart | webrtc_stream.py:172-180 | `touchstart` hands a DOWN to `sendEvt` exactly when a slot could be allocated, on the allocated slot, and leaves the allocator as `allocSlot` does |
| SlotAllocator.TouchEnd | webrtc_stream.py:190-199 | `touchend` hands an UP to `sendEvt` exactly for a mapped touch, on its slot, then frees it |
| SlotAllocator.Disconnect | webrtc_stream.py:251-253 | `ws.onclose` drops every mapping and frees every slot, leaving a well-formed empty allocator |
| SlotAllocator.DisconnectDropsUp | webrtc_stream.py:190-199 | after a disconnect, a touch that was live gets no UP when it ends |
| SlotAllocator.ConcurrentTouchesDistinctSlots | webrtc_stream.py:172-209 | two live touches are sent on distinct slots in [0, 9], and each UP carries its DOWN's slot |
| Pointer.TruncDiv | receiver.py:74-75 | `int()` of the quotient rounds toward zero: the remainder `a - q * b` has the sign of `a` and is smaller than `b` in magnitude |
| Pointer.MapMouseCoords | receiver.py:70-78 | the mapped point always lies in [0, 1279] x [0, 719] |
| Pointer.MapIdentityAtStreamSize | receiver.py:70-78 | with a window of exactly 1280 x 720 every in-window position maps to itself |
| Pointer.MapInsideWindow | receiver.py:74-77 | inside the window the mapping is the floor of the scaled position; the clamp never applies |
| Pointer.MapMonotone | receiver.py:74-77 | for a fixed window the mapping never decreases in either coordinate |
| Pointer.BuildKeymap | receiver.py:82-141 | every code the built table holds is one of the listed evdev codes |
| Pointer.InsertLookup | receiver.py:91-140 | after the dict assignments a key holds the code of its last assignment, and keys never assigned are untouched |
| Pointer.KeymapLetters | receiver.py:87-92 | the `i`-th letter maps to the `i`-th letter code, which no other letter shares |
| Pointer.KeymapDigits | receiver.py:93-96 | `K_0` maps to 11 and `K_0 + i` to `i + 1` |
| Pointer.KeymapNamed | receiver.py:98-140 | each named key maps to its listed code |
| Pointer.KeymapCodesNonzero | receiver.py:82-141 | every mapped code lies in [1, 111], so it passes the `if evdev_code` gate |
| Pointer.KeymapOnlyListedKeys | receiver.py:82-141 | a key outside the table is not mapped |
| Pointer.KeyCode | receiver.py:285-291 | `keymap.get(key, 0)`: an unmapped key gives 0, and a nonzero result is the key's mapped code |
| Pointer.KeyCodeNonzeroIffListed | receiver.py:285-291 | with the built table, the `if evdev_code:` gate passes exactly for the keys the table lists |
| Pointer.PumpStep | receiver.py:252-294 | QUIT alone stops the pump; only a left-button down or up changes `touching`, and with a sender address it sets or clears it respectively; a one-record packet is sent exactly when a sender address is configured and the event is a motion while touching, a left-button down or up, or a key with a nonzero mapped code |
| Pointer.PumpPacketMeaning | receiver.py:265-294 | pointer records carry an in-frame position on slot 0; MOVE is sent only while touching; key records carry the nonzero mapped code |
| Pointer.PumpBatch | receiver.py:250-255 | a QUIT in the batch stops the pump, and without a sender address no packet is sent |
| Pointer.PumpBatchOne | receiver.py:252-294 | a batch of one event has that event's state and sends its packet, if any |
| Pointer.PumpBatchAppend | receiver.py:252 | without a QUIT in the first part, a batch sends the first part's packets and then the rest's, in order, from the state the first part leaves |
| Pointer.QuitEndsBatch | receiver.py:253-255 | events after a QUIT in the same batch send nothing |
| Pointer.BuiltKeymapValid | receiver.py:82-141 | the built table's codes fit a record's i16 argument |
| Fmp4.BoxSize | web_receiver.py:46 | the size field is a big-endian u32: each of its four bytes is the base-256 digit of the size at its position, the first the most significant |
| Fmp4.FindMoofFrom | web_receiver.py:44-53 | the scan from an offset returns -1 or a `moof` header at or after it; it terminates because every hop advances at least 8 bytes |
| Fmp4.FindMoof | web_receiver.py:42-53 | the result is -1 or an offset whose whole header fits and whose type is `moof`; data shorter than 8 bytes gives -1 |
| Fmp4.WalkKeepsResult | web_receiver.py:45-52 | hopping along the box chain does not change the scan's result |
| Fmp4.MoofOnChainFound | web_receiver.py:50-51 | a `moof` reached along the chain from 0 is the one returned |
| Fmp4.SmallBoxStops | web_receiver.py:48-49 | a size below 8 met on the chain before any `moof` gives -1 |
| Fmp4.ChainRunsOut | web_receiver.py:45-53 | a chain that runs past the data without a whole header gives -1 |
| Fmp4.FoundOnChain | web_receiver.py:42-53 | a found offset is the end of a walk along the chain, with no `moof` earlier on it |
| Fmp4.FindMoofCharacterised | web_receiver.py:42-53 | the scan succeeds exactly when some walk from 0 reaches a `moof` header |
| Fmp4.SplitInit | web_receiver.py:298-305 | no split while there is no `moof`; otherwise `init + remainder` is the buffer, the init segment ends at the `moof`, and the remainder starts with it |
| Fmp4.FirstBroadcastIsBuffer | web_receiver.py:303-307 | the first broadcast is the whole buffer, and rescanning it finds the `moof` right after the init segment |
| Fmp4.MoofFirstGivesEmptyInit | web_receiver.py:223-225 | data starting with a `moof` gives an empty init segment, which late joiners are not sent |
| EndToEnd.OneRecordPerDatagram | input_server.py:180-193 | a lone 13-byte datagram decodes to exactly its record |
| EndToEnd.ClickTaps | receiver.py:272-282 | a left click pumps two packets that press BTN_TOUCH on slot 0 and then fully release it |
| EndToEnd.HoverSendsNothing | receiver.py:265-270 | motion with the button up sends nothing |

## Left out

- GStreamer pipelines, WebRTC signalling, the GLib loop, PipeWire discovery,
  ffmpeg subprocesses, TCP and WebSocket I/O, broadcasting and rendering are
  I/O and concurrency. Only the pure init-segment split of `push` is kept.
- Creating the uinput device is a foreign call. Its axis ranges are kept as
  the table `Device.DeclaredAxis`.
- Exceptions that `dev.write` might raise are not modelled: `handle_event`
  is total here.
- The browser's `mapXY` letterbox mapping is floating-point DOM geometry.
  `MkEvt` takes its output as given.
- `input_sender_loop` in receiver.py is never called. It would send
  `event.rel` or `event.button` in arg3, which the injector reads as a slot.
- The pygame key constants are parameters (`Pointer.PygameKeys`), not their
  numeric values.
- Clocks are parameters: `make_event`'s `time.monotonic()` and `mkEvt`'s
  `performance.now()`. One pump batch (`Pointer.PumpBatch`) uses one clock
  reading and one window size for all its events, whereas the receiver reads
  the clock in each `make_event` call and the window size for each event.
- The sender address, the window size and the `running_event` flag, which
  the TCP reader thread can also clear, are inputs to the pump.
- `ws_handler` sending the stored init segment to a new client is I/O. Only
  the falsy empty segment is stated (`Fmp4.MoofFirstGivesEmptyInit`).
- The device view keeps the last value written to each channel. It does not
  model the kernel's per-frame latching at SYN or its handling of
  out-of-range values.
- The event counter and logging in the input server are left out.
- Transport.RelayFrame: does not model the error for a binary frame larger
  than a UDP payload (65507 bytes). `sendto` raises `OSError` there, and the
  handler catches only `ConnectionClosed`, so the error ends the handler and
  the viewer is disconnected. The model forwards such a frame instead.
- SlotAllocator.TouchStart: the DOWN is handed to `sendEvt`, which drops it
  unless the data channel is open. The slot is allocated either way, so a
  DOWN can be lost while its slot stays taken. Whether the channel is open is
  not modelled.
- SlotAllocator.TouchEnd: the UP is handed to `sendEvt` and is dropped the
  same way while the channel is not open. The slot is freed either way. The
  reset on disconnect (`SlotAllocator.Disconnect`) frees every slot without
  sending any UP.
- Pointer.MapMouseCoords: requires a positive window size; a zero size
  would raise `ZeroDivisionError`, which is not modelled.

=== FILE: device.dfy ===
/**
  What the written primitives leave on the virtual touchscreen: for every
  channel the last value written to it, with the multi-touch channels kept
  per slot and addressed through the currently selected slot, as a type-B
  multi-touch device latches them. BTN_TOUCH is a key like any other, so a
  key edge whose code is BTN_TOUCH's writes the same state.

  The axis ranges the device declares at creation are kept as a table; the
  kernel does not reject values outside them, and neither does this view.
*/
module Device {
  import opened Wrappers
  import opened Wire
  import opened Injector

  /** `ecodes.BTN_TOUCH`: the evdev key code of the touch button. */
  const BTN_TOUCH_CODE: int := 0x14a

  /** Last written values. `tracking`, `mtX` and `mtY` are per slot; a slot
      never written has tracking id -1 (no contact). */
  datatype View = View(slot: int, tracking: map<int, int>, mtX: map<int, int>, mtY: map<int, int>,
                       absX: int, absY: int, keys: map<int, int>)

  /** The device as created: slot 0 selected, nothing written yet. */
  const Initial: View := View(0, map[], map[], map[], 0, 0, map[])

  function TrackingOf(v: View, s: int): int {
    if s in v.tracking then v.tracking[s] else -1
  }

  /** The touch button is held down. */
  predicate Touching(v: View) {
    BTN_TOUCH_CODE in v.keys && v.keys[BTN_TOUCH_CODE] != 0
  }

  /** One `dev.write`; the barrier changes no value. */
  function Apply(v: View, p: Prim): View {
    match p
    case Syn => v
    case Write(ch, x) =>
      match ch
      case AbsMtSlot => v.(slot := x)
      case AbsMtTrackingId => v.(tracking := v.tracking[v.slot := x])
      case AbsMtPositionX => v.(mtX := v.mtX[v.slot := x])
      case AbsMtPositionY => v.(mtY := v.mtY[v.slot := x])
      case AbsX => v.(absX := x)
      case AbsY => v.(absY := x)
      case BtnTouch => v.(keys := v.keys[BTN_TOUCH_CODE := x])
      case Key(code) => v.(keys := v.keys[code := x])
  }

  /** The writes of an emission, in order. */
  function Replay(v: View, prims: seq<Prim>): View
    decreases |prims|
  {
    if prims == [] then v else Replay(Apply(v, prims[0]), prims[1..])
  }

  lemma {:induction false} ReplayAppend(v: View, a: seq<Prim>, b: seq<Prim>)
    ensures Replay(v, a + b) == Replay(Replay(v, a), b)
    decreases |a|
  {
    if a == [] {
      assert a + b == b;
    } else {
      assert (a + b)[0] == a[0];
      assert (a + b)[1..] == a[1..] + b;
      ReplayAppend(Apply(v, a[0]), a[1..], b);
    }
  }

  lemma ReplayOne(v: View, p: Prim)
    ensures Replay(v, [p]) == Apply(v, p)
  {
    assert [p][1..] == [];
  }

  lemma ReplayCons(v: View, p: Prim, rest: seq<Prim>)
    ensures Replay(v, [p] + rest) == Replay(Apply(v, p), rest)
  {
    assert ([p] + rest)[1..] == rest;
  }

  /** Replaying a run of writes applies them one by one. */
  lemma ReplayTwo(v: View, a: Prim, b: Prim)
    ensures Replay(v, [a, b]) == Apply(Apply(v, a), b)
  {
    assert [a, b] == [a] + [b];
    ReplayCons(v, a, [b]);
    ReplayOne(Apply(v, a), b);
  }

  lemma ReplayThree(v: View, a: Prim, b: Prim, c: Prim)
    ensures Replay(v, [a, b, c]) == Apply(Apply(Apply(v, a), b), c)
  {
    assert [a, b, c] == [a] + [b, c];
    ReplayCons(v, a, [b, c]);
    ReplayTwo(Apply(v, a), b, c);
  }

  lemma ReplayFour(v: View, a: Prim, b: Prim, c: Prim, d: Prim)
    ensures Replay(v, [a, b, c, d]) == Apply(Apply(Apply(Apply(v, a), b), c), d)
  {
    assert [a, b, c, d] == [a] + [b, c, d];
    ReplayCons(v, a, [b, c, d]);
    ReplayThree(Apply(v, a), b, c, d);
  }

  // ---------------------------------------------------------------------
  // Device-level effect of one event
  // ---------------------------------------------------------------------

  /** The device state one event leads to, field by field: pointer kinds
      select the slot; MOVE and DOWN place that slot's contact and, on slot
      0, the single-touch position; DOWN starts the contact (tracking id =
      slot) and UP ends it (-1); the touch button goes to 1 on a DOWN and to 0
      on an UP when no other slot was active; a key edge sets that key. */
  function Effect(v: View, active: set<int>, e: Event): View {
    var s := SlotOf(e);
    var x, y := e.arg1 as int, e.arg2 as int;
    var placed := Place(v, s, x, y);
    var lone := active <= {s};
    if e.kind == EVT_MOUSE_MOVE then placed
    else if e.kind == EVT_MOUSE_DOWN then
      placed.(tracking := v.tracking[s := s],
              keys := if lone then v.keys[BTN_TOUCH_CODE := 1] else v.keys)
    else if e.kind == EVT_MOUSE_UP then
      v.(slot := s, tracking := v.tracking[s := -1],
         keys := if lone then v.keys[BTN_TOUCH_CODE := 0] else v.keys)
    else if e.kind == EVT_KEY_DOWN then v.(keys := v.keys[x := 1])
    else if e.kind == EVT_KEY_UP then v.(keys := v.keys[x := 0])
    else v
  }

  /** Selects slot `s` and moves its contact to (x, y), mirrored to the
      single-touch axes on slot 0. */
  function Place(v: View, s: int, x: int, y: int): View {
    v.(slot := s, mtX := v.mtX[s := x], mtY := v.mtY[s := y],
       absX := if s == 0 then x else v.absX, absY := if s == 0 then y else v.absY)
  }

  lemma ReplayMirror(v: View, s: int, x: int, y: int)
    ensures Replay(v, Mirror(s, x, y))
      == v.(absX := if s == 0 then x else v.absX, absY := if s == 0 then y else v.absY)
  {
    ReplayTwo(v, Write(AbsX, x), Write(AbsY, y));
  }

  lemma ReplayEdge(v: View, fires: bool, value: int)
    ensures Replay(v, Edge(fires, value))
      == if fires then v.(keys := v.keys[BTN_TOUCH_CODE := value]) else v
  {
    ReplayOne(v, Write(BtnTouch, value));
  }

  lemma ReplayMove(v: View, active: set<int>, e: Event)
    requires e.kind == EVT_MOUSE_MOVE
    ensures Replay(v, HandleEvent(active, e).prims) == Effect(v, active, e)
  {
    var s, x, y := SlotOf(e), e.arg1 as int, e.arg2 as int;
    var head := [Write(AbsMtSlot, s), Write(AbsMtPositionX, x), Write(AbsMtPositionY, y)];
    assert HandleEvent(active, e).prims == head + Mirror(s, x, y) + [Syn];
    ReplayAppend(v, head + Mirror(s, x, y), [Syn]);
    ReplayAppend(v, head, Mirror(s, x, y));
    ReplayThree(v, head[0], head[1], head[2]);
    var v1 := Replay(v, head);
    ReplayMirror(v1, s, x, y);
    ReplayOne(Replay(v1, Mirror(s, x, y)), Syn);
  }

  lemma ReplayDown(v: View, active: set<int>, e: Event)
    requires e.kind == EVT_MOUSE_DOWN
    ensures Replay(v, HandleEvent(active, e).prims) == Effect(v, active, e)
  {
    var s, x, y := SlotOf(e), e.arg1 as int, e.arg2 as int;
    var fires := |active + {s}| == 1;
    SingletonAfterInsert(active, s);
    DownShape(active, e);
    var head := [Write(AbsMtSlot, s), Write(AbsMtTrackingId, s),
                 Write(AbsMtPositionX, x), Write(AbsMtPositionY, y)];
    assert DownPrims(s, x, y, fires) == head + Edge(fires, 1) + Mirror(s, x, y) + [Syn];
    ReplayAppend(v, head + Edge(fires, 1) + Mirror(s, x, y), [Syn]);
    ReplayAppend(v, head + Edge(fires, 1), Mirror(s, x, y));
    ReplayAppend(v, head, Edge(fires, 1));
    ReplayFour(v, head[0], head[1], head[2], head[3]);
    var v1 := Replay(v, head);
    ReplayEdge(v1, fires, 1);
    var v2 := Replay(v1, Edge(fires, 1));
    ReplayMirror(v2, s, x, y);
    ReplayOne(Replay(v2, Mirror(s, x, y)), Syn);
  }

  lemma ReplayUp(v: View, active: set<int>, e: Event)
    requires e.kind == EVT_MOUSE_UP
    ensures Replay(v, HandleEvent(active, e).prims) == Effect(v, active, e)
  {
    var s := SlotOf(e);
    var fires := active - {s} == {};
    assert fires <==> active <= {s};
    var head := [Write(AbsMtSlot, s), Write(AbsMtTrackingId, -1)];
    assert HandleEvent(active, e).prims == head + Edge(fires, 0) + [Syn];
    ReplayAppend(v, head + Edge(fires, 0), [Syn]);
    ReplayAppend(v, head, Edge(fires, 0));
    ReplayTwo(v, head[0], head[1]);
    var v1 := Replay(v, head);
    ReplayEdge(v1, fires, 0);
    ReplayOne(Replay(v1, Edge(fires, 0)), Syn);
  }

  /** Replaying what `HandleEvent` writes yields exactly `Effect`. */
  lemma ReplayHandleEvent(v: View, active: set<int>, e: Event)
    ensures Replay(v, HandleEvent(active, e).prims) == Effect(v, active, e)
  {
    if e.kind == EVT_MOUSE_MOVE {
      ReplayMove(v, active, e);
    } else if e.kind == EVT_MOUSE_DOWN {
      ReplayDown(v, active, e);
    } else if e.kind == EVT_MOUSE_UP {
      ReplayUp(v, active, e);
    } else if e.kind == EVT_KEY_DOWN || e.kind == EVT_KEY_UP {
      ReplayTwo(v, Write(Key(e.arg1 as int), if e.kind == EVT_KEY_DOWN then 1 else 0), Syn);
    } else {
      assert HandleEvent(active, e).prims == [];
    }
  }

  // ---------------------------------------------------------------------
  // The active set agrees with the device
  // ---------------------------------------------------------------------

  /** Every slot has a contact (tracking id = slot) exactly when it is in the
      active set, and the touch button is held exactly when some slot is. */
  predicate Consistent(active: set<int>, v: View) {
    && SlotsInRange(active)
    && (forall s :: 0 <= s < MAX_TOUCH_SLOTS ==> TrackingOf(v, s) == (if s in active then s else -1))
    && (Touching(v) <==> active != {})
  }

  /** A key edge whose code is BTN_TOUCH's. */
  predicate AliasesTouch(e: Event) {
    (e.kind == EVT_KEY_DOWN || e.kind == EVT_KEY_UP) && e.arg1 as int == BTN_TOUCH_CODE
  }

  /** The module-level set starts empty and the device starts untouched. */
  lemma InitialConsistent()
    ensures Consistent({}, Initial)
  {
  }

  /** Every event except a key edge on BTN_TOUCH's code keeps the active set
      and the device in agreement. */
  lemma HandleEventKeepsConsistent(active: set<int>, v: View, e: Event)
    requires Consistent(active, v)
    requires !AliasesTouch(e)
    ensures var r := HandleEvent(active, e);
      Consistent(r.active, Replay(v, r.prims))
  {
    ReplayHandleEvent(v, active, e);
    if e.kind == EVT_MOUSE_DOWN || e.kind == EVT_MOUSE_UP {
      ContactKeepsConsistent(active, v, e);
    } else {
      assert Effect(v, active, e).tracking == v.tracking;
      assert Touching(Effect(v, active, e)) == Touching(v);
    }
  }

  lemma ContactKeepsConsistent(active: set<int>, v: View, e: Event)
    requires Consistent(active, v)
    requires e.kind == EVT_MOUSE_DOWN || e.kind == EVT_MOUSE_UP
    ensures Consistent(if e.kind == EVT_MOUSE_DOWN then active + {SlotOf(e)} else active - {SlotOf(e)},
                       Effect(v, active, e))
  {
    var s := SlotOf(e);
    var after := if e.kind == EVT_MOUSE_DOWN then active + {s} else active - {s};
    var w := Effect(v, active, e);
    if t :| t in active && t != s {
      assert !(active <= {s});
      assert Touching(v) && Touching(w);
      assert t in after;
    } else {
      forall t | t in active
        ensures t in {s}
      {
      }
      if e.kind == EVT_MOUSE_UP {
        assert after == {};
      } else {
        assert s in after;
      }
    }
    forall t | 0 <= t < MAX_TOUCH_SLOTS
      ensures TrackingOf(w, t) == (if t in after then t else -1)
    {
      assert TrackingOf(v, t) == (if t in active then t else -1);
    }
  }

  /** The agreement holds across a whole run of records, so across every
      datagram the injector has served since it was created. */
  lemma {:induction false} ApplyAllKeepsConsistent(active: set<int>, v: View, evs: seq<Event>)
    requires Consistent(active, v)
    requires forall i :: 0 <= i < |evs| ==> !AliasesTouch(evs[i])
    ensures var r := ApplyAll(active, evs);
      Consistent(r.active, Replay(v, r.prims))
    decreases |evs|
  {
    if evs != [] {
      var first := HandleEvent(active, evs[0]);
      var rest := evs[1..];
      HandleEventKeepsConsistent(active, v, evs[0]);
      forall i | 0 <= i < |rest|
        ensures !AliasesTouch(rest[i])
      {
        assert rest[i] == evs[i + 1];
      }
      ApplyAllKeepsConsistent(first.active, Replay(v, first.prims), rest);
      ReplayAppend(v, first.prims, ApplyAll(first.active, rest).prims);
    }
  }

  /** Key codes are not filtered: a KEY_DOWN carrying BTN_TOUCH's code holds
      the touch button down while no slot is active. */
  lemma KeyEdgeCanPressTouch()
    ensures var e := Event(EVT_KEY_DOWN, 0, BTN_TOUCH_CODE as i16, 0, 0, 0);
      var r := HandleEvent({}, e);
      && r.active == {}
      && Touching(Replay(Initial, r.prims))
      && !Consistent(r.active, Replay(Initial, r.prims))
  {
    var e := Event(EVT_KEY_DOWN, 0, BTN_TOUCH_CODE as i16, 0, 0, 0);
    ReplayHandleEvent(Initial, {}, e);
  }

  /** The device effect of an event is idempotent once the press/release
      condition is unchanged. */
  lemma EffectTwice(v: View, active: set<int>, active2: set<int>, e: Event)
    requires active2 <= {SlotOf(e)} <==> active <= {SlotOf(e)}
    ensures Effect(Effect(v, active, e), active2, e) == Effect(v, active, e)
  {
    if e.kind == EVT_MOUSE_MOVE {
      var w := Effect(v, active, e);
      assert w.mtX[SlotOf(e) := e.arg1 as int] == w.mtX && w.mtY[SlotOf(e) := e.arg2 as int] == w.mtY;
    } else if e.kind == EVT_MOUSE_DOWN {
      DownTwice(v, active, active2, e);
    } else if e.kind == EVT_MOUSE_UP {
      UpTwice(v, active, active2, e);
    } else if e.kind == EVT_KEY_DOWN || e.kind == EVT_KEY_UP {
      var w := Effect(v, active, e);
      assert w.keys[e.arg1 as int := if e.kind == EVT_KEY_DOWN then 1 else 0] == w.keys;
    }
  }

  lemma DownTwice(v: View, active: set<int>, active2: set<int>, e: Event)
    requires e.kind == EVT_MOUSE_DOWN
    requires active2 <= {SlotOf(e)} <==> active <= {SlotOf(e)}
    ensures Effect(Effect(v, active, e), active2, e) == Effect(v, active, e)
  {
    var s, x, y := SlotOf(e), e.arg1 as int, e.arg2 as int;
    var w := Effect(v, active, e);
    assert w.mtX[s := x] == w.mtX && w.mtY[s := y] == w.mtY;
    assert w.tracking[s := s] == w.tracking;
    assert w.keys[BTN_TOUCH_CODE := 1] == w.keys || !(active <= {s});
  }

  lemma UpTwice(v: View, active: set<int>, active2: set<int>, e: Event)
    requires e.kind == EVT_MOUSE_UP
    requires active2 <= {SlotOf(e)} <==> active <= {SlotOf(e)}
    ensures Effect(Effect(v, active, e), active2, e) == Effect(v, active, e)
  {
    var s := SlotOf(e);
    var w := Effect(v, active, e);
    assert w.tracking[s := -1] == w.tracking;
    assert w.keys[BTN_TOUCH_CODE := 0] == w.keys || !(active <= {s});
  }

  /** A repeated event is harmless: applying an event a second time changes
      neither the active set nor anything on the device, so a duplicated
      record cannot leave a second contact or flip the touch button. */
  lemma DuplicateEventHarmless(active: set<int>, v: View, e: Event)
    ensures var r1 := HandleEvent(active, e);
      var r2 := HandleEvent(r1.active, e);
      && r2.active == r1.active
      && Replay(Replay(v, r1.prims), r2.prims) == Replay(v, r1.prims)
  {
    var r1 := HandleEvent(active, e);
    var v1 := Replay(v, r1.prims);
    ReplayHandleEvent(v, active, e);
    ReplayHandleEvent(v1, r1.active, e);
    var s := SlotOf(e);
    assert r1.active <= {s} <==> active <= {s};
    EffectTwice(v, active, r1.active, e);
  }

  // ---------------------------------------------------------------------
  // Declared axis ranges
  // ---------------------------------------------------------------------

  /** `AbsInfo`'s bounds. */
  datatype AxisInfo = AxisInfo(min: int, max: int)

  /** The absolute axes declared when the device is created; the other
      channels are keys. */
  function DeclaredAxis(ch: Channel): (r: Option<AxisInfo>)
    ensures r.Some? <==> !(ch.BtnTouch? || ch.Key?)
    ensures r.Some? ==> 0 <= r.value.max - r.value.min
    ensures ch.AbsMtSlot? || ch.AbsMtTrackingId? ==> r.value.max == MAX_TOUCH_SLOTS - 1
    ensures r.Some? && r.value.min < 0 ==> ch.AbsMtTrackingId? && r.value.min == -1
  {
    match ch
    case AbsX => Some(AxisInfo(0, STREAM_WIDTH - 1))
    case AbsY => Some(AxisInfo(0, STREAM_HEIGHT - 1))
    case AbsMtSlot => Some(AxisInfo(0, MAX_TOUCH_SLOTS - 1))
    case AbsMtTrackingId => Some(AxisInfo(-1, MAX_TOUCH_SLOTS - 1))
    case AbsMtPositionX => Some(AxisInfo(0, STREAM_WIDTH - 1))
    case AbsMtPositionY => Some(AxisInfo(0, STREAM_HEIGHT - 1))
    case _ => None
  }

  predicate InDeclaredRange(ch: Channel, value: int) {
    match DeclaredAxis(ch)
    case Some(a) => a.min <= value <= a.max
    case None => true
  }

  /** Slot and tracking-id writes always lie inside the declared axes,
      whatever the record carried. */
  lemma SlotAxesInRange(active: set<int>, e: Event)
    ensures forall w :: w in Writes(HandleEvent(active, e).prims, AbsMtSlot) ==> InDeclaredRange(AbsMtSlot, w)
    ensures forall w :: w in Writes(HandleEvent(active, e).prims, AbsMtTrackingId) ==> InDeclaredRange(AbsMtTrackingId, w)
  {
    HandleEventWrites(active, e, AbsMtSlot);
    HandleEventWrites(active, e, AbsMtTrackingId);
  }

  /** Positions are not clamped: a MOVE to x = 5000 writes 5000 to both X
      axes, beyond the declared maximum of 1279. */
  lemma PositionsNotClamped()
    ensures var e := Event(EVT_MOUSE_MOVE, 0, 5000, 100, 0, 0);
      && 5000 in Writes(HandleEvent({}, e).prims, AbsMtPositionX)
      && 5000 in Writes(HandleEvent({}, e).prims, AbsX)
      && !InDeclaredRange(AbsMtPositionX, 5000) && !InDeclaredRange(AbsX, 5000)
  {
    var e := Event(EVT_MOUSE_MOVE, 0, 5000, 100, 0, 0);
    HandleEventWrites({}, e, AbsMtPositionX);
    HandleEventWrites({}, e, AbsX);
  }
}

=== FILE: end_to_end.dfy ===
/**
  The desktop receiver and the input server together: the receiver sends each
  record as its own datagram, and the server decodes and injects it.
*/
module EndToEnd {
  import opened Wire
  import opened Injector
  import opened Transport
  import opened Pointer

  /** A lone record survives the trip through one datagram unchanged. */
  lemma OneRecordPerDatagram(packet: seq<byte>)
    requires |packet| == EVENT_SIZE
    ensures Records(Receive(packet)) == [Unpack(packet, 0)]
  {
    RecordsCons(packet);
  }

  /** Serving a one-record datagram is handling that record. */
  lemma ServeOne(active: set<int>, packet: seq<byte>)
    requires |packet| == EVENT_SIZE
    ensures ServeDatagram(active, packet) == HandleEvent(active, Unpack(packet, 0))
  {
    OneRecordPerDatagram(packet);
    assert ApplyAll(active, [Unpack(packet, 0)]) == HandleEvent(active, Unpack(packet, 0));
  }

  /** The receiver's press, on an idle server, touches down on slot 0. */
  lemma PressOnIdle(e: Event)
    requires e.kind == EVT_MOUSE_DOWN && e.arg3 == 0
    ensures HandleEvent({}, e).active == {0}
    ensures Writes(HandleEvent({}, e).prims, BtnTouch) == [1]
  {
    assert |{0}| == 1;
    HandleEventWrites({}, e, BtnTouch);
  }

  /** The receiver's release lifts slot 0 and the touch button. */
  lemma ReleaseOnZero(e: Event)
    requires e.kind == EVT_MOUSE_UP && e.arg3 == 0
    ensures HandleEvent({0}, e) == Step({}, [Write(AbsMtSlot, 0), Write(AbsMtTrackingId, -1), Write(BtnTouch, 0), Syn])
  {
  }

  /** A left click in the receiver window (press, then release, anywhere)
      presses BTN_TOUCH once and releases it once on slot 0, and the server
      ends with no contact, as the receiver ends not touching. */
  lemma ClickTaps(env: Env, x0: int, y0: int, x1: int, y1: int)
    requires ValidEnv(env) && env.senderConfigured
    ensures var d := PumpStep(Pump(true, false), MouseButtonDown(1, x0, y0), env);
      var u := PumpStep(d.state, MouseButtonUp(1, x1, y1), env);
      && d.packet.Some? && u.packet.Some?
      && d.state.touching && !u.state.touching
      && ServeDatagram({}, d.packet.value).active == {0}
      && Writes(ServeDatagram({}, d.packet.value).prims, BtnTouch) == [1]
      && ServeDatagram({0}, u.packet.value) == Step({}, [Write(AbsMtSlot, 0), Write(AbsMtTrackingId, -1), Write(BtnTouch, 0), Syn])
  {
    var d := PumpStep(Pump(true, false), MouseButtonDown(1, x0, y0), env);
    var u := PumpStep(d.state, MouseButtonUp(1, x1, y1), env);
    PumpPacketMeaning(Pump(true, false), MouseButtonDown(1, x0, y0), env);
    PumpPacketMeaning(d.state, MouseButtonUp(1, x1, y1), env);
    ServeOne({}, d.packet.value);
    ServeOne({0}, u.packet.value);
    PressOnIdle(Unpack(d.packet.value, 0));
    ReleaseOnZero(Unpack(u.packet.value, 0));
  }

  /** Pointer motion with the button up sends nothing, so it never moves a
      contact on the device. */
  lemma HoverSendsNothing(s: Pump, env: Env, x: int, y: int)
    requires ValidEnv(env) && !s.touching
    ensures PumpStep(s, MouseMotion(x, y), env).packet.None?
  {
  }
}

=== FILE: fmp4.dfy ===
/**
  The browser receiver's fragmented-MP4 handling: the remuxer's output is
  buffered until the first `moof` box is found by walking box headers
  (section 4.2 of ISO/IEC 14496-12: a 32-bit big-endian size, then a
  four-byte type), and everything before that box becomes the init segment
  replayed to late-joining browsers.
*/
module Fmp4 {
  import opened Wrappers
  import opened Wire

  /** The four-character type `moof`. */
  const MOOF: seq<byte> := [0x6d, 0x6f, 0x6f, 0x66]

  /** The size of a box header: size field plus type field. */
  const HEADER: nat := 8

  /** `int.from_bytes(data[o:o+4], "big")`. */
  function BoxSize(data: seq<byte>, o: nat): (r: nat)
    requires o + 4 <= |data|
    ensures r < 0x1_0000_0000
    ensures r / 0x100_0000 == data[o] && r % 0x100 == data[o + 3]
    ensures (r / 0x1_0000) % 0x100 == data[o + 1] && (r / 0x100) % 0x100 == data[o + 2]
  {
    BigEndianDigits(data[o], data[o + 1], data[o + 2], data[o + 3]);
    ((data[o] as int * 0x100 + data[o + 1] as int) * 0x100 + data[o + 2] as int) * 0x100 + data[o + 3] as int
  }

  /** Each byte of a big-endian u32 sits in its own base-256 digit. */
  lemma BigEndianDigits(d0: byte, d1: byte, d2: byte, d3: byte)
    ensures var u := d0 as int * 0x100 + d1 as int;
      var t := u * 0x100 + d2 as int;
      var r := t * 0x100 + d3 as int;
      && r / 0x100_0000 == d0 && r % 0x100 == d3
      && (r / 0x1_0000) % 0x100 == d1 && (r / 0x100) % 0x100 == d2
  {
    var u := d0 as int * 0x100 + d1 as int;
    var t := u * 0x100 + d2 as int;
    var r := t * 0x100 + d3 as int;
    ByteDigit(d1, d0);
    ByteDigit(d2, u);
    ByteDigit(d3, t);
    assert r == (d3 as int + 0x100 * d2 as int) + 0x1_0000 * u;
    assert r / 0x1_0000 == u;
    assert r == (d3 as int + 0x100 * d2 as int + 0x1_0000 * d1 as int) + 0x100_0000 * d0 as int;
  }

  /** A whole box header starts at `o`. */
  predicate HeaderAt(data: seq<byte>, o: int) {
    0 <= o && o + HEADER <= |data|
  }

  /** The box at `o` is a `moof` with a usable size. */
  predicate MoofAt(data: seq<byte>, o: int) {
    HeaderAt(data, o) && BoxSize(data, o) >= HEADER && data[o + 4..o + 8] == MOOF
  }

  /** `find_moof_offset`'s loop from `offset`: stop with -1 when no whole
      header fits or a size below 8 is read, stop at a `moof`, otherwise
      skip the box. Every step advances at least eight bytes, which is what
      makes the loop terminate. */
  function FindMoofFrom(data: seq<byte>, offset: nat): (r: int)
    ensures r == -1 || (offset <= r && MoofAt(data, r))
    decreases |data| - offset
  {
    if offset + HEADER > |data| then -1
    else if BoxSize(data, offset) < HEADER then -1
    else if data[offset + 4..offset + 8] == MOOF then offset
    else FindMoofFrom(data, offset + BoxSize(data, offset))
  }

  /** `find_moof_offset(data)`: the offset of the first `moof` on the box
      chain from 0, or -1. */
  function FindMoof(data: seq<byte>): (r: int)
    ensures r == -1 || (0 <= r && r + HEADER <= |data| && data[r + 4..r + 8] == MOOF)
    ensures |data| < HEADER ==> r == -1
  {
    FindMoofFrom(data, 0)
  }

  // ---------------------------------------------------------------------
  // The box chain
  // ---------------------------------------------------------------------

  /** A step along the chain: a whole header that is not `moof`, with a size
      of at least eight, leading to the next header. */
  predicate Hop(data: seq<byte>, o: int, next: int) {
    && HeaderAt(data, o)
    && BoxSize(data, o) >= HEADER
    && data[o + 4..o + 8] != MOOF
    && next == o + BoxSize(data, o)
  }

  /** `offs` is a run of consecutive hops along the chain. */
  predicate Walk(data: seq<byte>, offs: seq<int>) {
    && |offs| >= 1
    && 0 <= offs[0]
    && forall k :: 0 <= k < |offs| - 1 ==> Hop(data, offs[k], offs[k + 1])
  }

  /** Walking the chain does not change where the scan ends: the result from
      the start of a walk is the result from its end. */
  lemma {:induction false} WalkKeepsResult(data: seq<byte>, offs: seq<int>)
    requires Walk(data, offs)
    ensures offs[|offs| - 1] >= 0
    ensures FindMoofFrom(data, offs[0]) == FindMoofFrom(data, offs[|offs| - 1])
    decreases |offs|
  {
    if |offs| > 1 {
      assert Hop(data, offs[0], offs[1]);
      var rest := offs[1..];
      forall k | 0 <= k < |rest| - 1
        ensures Hop(data, rest[k], rest[k + 1])
      {
        assert Hop(data, offs[k + 1], offs[k + 2]);
      }
      WalkKeepsResult(data, rest);
    }
  }

  /** The first `moof` on the chain is found: if a walk from 0 reaches a
      `moof` header, the scan returns its offset. */
  lemma MoofOnChainFound(data: seq<byte>, offs: seq<int>)
    requires Walk(data, offs) && offs[0] == 0
    requires MoofAt(data, offs[|offs| - 1])
    ensures FindMoof(data) == offs[|offs| - 1]
  {
    WalkKeepsResult(data, offs);
  }

  /** A size below eight met on the chain before any `moof` ends the scan
      with -1, whatever follows. */
  lemma SmallBoxStops(data: seq<byte>, offs: seq<int>)
    requires Walk(data, offs) && offs[0] == 0
    requires HeaderAt(data, offs[|offs| - 1]) && BoxSize(data, offs[|offs| - 1]) < HEADER
    ensures FindMoof(data) == -1
  {
    WalkKeepsResult(data, offs);
  }

  /** A chain that runs off the end of the data without a whole header
      yields -1. */
  lemma ChainRunsOut(data: seq<byte>, offs: seq<int>)
    requires Walk(data, offs) && offs[0] == 0
    requires !HeaderAt(data, offs[|offs| - 1])
    ensures FindMoof(data) == -1
  {
    WalkKeepsResult(data, offs);
  }

  /** Conversely, a found offset is reached by a walk from where the scan
      started: it lies on the box chain and no earlier box on the chain is a
      `moof`. */
  lemma FoundOnChain(data: seq<byte>, offset: nat)
    requires FindMoofFrom(data, offset) != -1
    ensures exists offs :: Walk(data, offs) && offs[0] == offset && offs[|offs| - 1] == FindMoofFrom(data, offset)
  {
    var offs := FoundWalk(data, offset);
  }

  lemma {:induction false} FoundWalk(data: seq<byte>, offset: nat) returns (offs: seq<int>)
    requires FindMoofFrom(data, offset) != -1
    ensures Walk(data, offs) && offs[0] == offset && offs[|offs| - 1] == FindMoofFrom(data, offset)
    decreases |data| - offset
  {
    if data[offset + 4..offset + 8] == MOOF {
      offs := [offset];
    } else {
      var next := offset + BoxSize(data, offset);
      var rest := FoundWalk(data, next);
      offs := [offset] + rest;
      assert Hop(data, offset, next);
      forall k | 0 <= k < |offs| - 1
        ensures Hop(data, offs[k], offs[k + 1])
      {
        if k > 0 {
          assert offs[k] == rest[k - 1] && offs[k + 1] == rest[k];
        }
      }
    }
  }

  /** The scan's answer, stated without the loop: -1 exactly when no walk
      from 0 reaches a `moof` header, and otherwise the end of such a walk. */
  lemma FindMoofCharacterised(data: seq<byte>)
    ensures FindMoof(data) != -1 <==>
      exists offs :: Walk(data, offs) && offs[0] == 0 && MoofAt(data, offs[|offs| - 1])
    ensures FindMoof(data) != -1 ==>
      exists offs :: Walk(data, offs) && offs[0] == 0 && offs[|offs| - 1] == FindMoof(data)
  {
    if FindMoof(data) != -1 {
      FoundOnChain(data, 0);
    } else if offs :| Walk(data, offs) && offs[0] == 0 && MoofAt(data, offs[|offs| - 1]) {
      MoofOnChainFound(data, offs);
    }
  }

  // ---------------------------------------------------------------------
  // Init segment
  // ---------------------------------------------------------------------

  /** The split `push` makes once the accumulated buffer holds a `moof`: the
      bytes before it are the init segment, the rest is the first media
      data; while there is no `moof` nothing is split. */
  datatype Split = Split(init: seq<byte>, remainder: seq<byte>)

  function SplitInit(buf: seq<byte>): (r: Option<Split>)
    ensures r.None? <==> FindMoof(buf) < 0
    ensures r.Some? ==> r.value.init + r.value.remainder == buf
    ensures r.Some? ==> |r.value.init| == FindMoof(buf) && r.value.remainder[4..8] == MOOF
  {
    var pos := FindMoof(buf);
    if pos < 0 then None else Some(Split(buf[..pos], buf[pos..]))
  }

  /** The first broadcast (`init_segment + remainder`) is the whole buffer,
      and rescanning it finds the `moof` right after the init segment. */
  lemma FirstBroadcastIsBuffer(buf: seq<byte>)
    requires SplitInit(buf).Some?
    ensures var s := SplitInit(buf).value;
      s.init + s.remainder == buf && FindMoof(s.init + s.remainder) == |s.init|
  {
  }

  /** Data that starts with a `moof` has an empty init segment, which is
      falsy, so late joiners are sent no init segment. */
  lemma MoofFirstGivesEmptyInit(buf: seq<byte>)
    requires |buf| >= HEADER && BoxSize(buf, 0) >= HEADER && buf[4..8] == MOOF
    ensures SplitInit(buf).Some? && SplitInit(buf).value.init == []
  {
  }
}

=== FILE: injector.dfy ===
/**
  The virtual multi-touch injector: `handle_event` of the UDP input server and
  `InputInjector.handle_event` of the WebRTC server, which are the same code
  (the latter spells the slot bound `MAX_TOUCH_SLOTS - 1`).

  The injector's state is the set of active slots. Each decoded event yields
  the new set and the ordered list of device primitives it writes: the
  `dev.write(type, code, value)` calls and the closing `dev.syn()`.
*/
module Injector {
  import opened Wire

  const MAX_TOUCH_SLOTS: int := 10

  /** The (event type, event code) pairs the injector writes. */
  datatype Channel =
    | AbsMtSlot          // EV_ABS ABS_MT_SLOT: selects the slot later MT writes go to
    | AbsMtTrackingId    // EV_ABS ABS_MT_TRACKING_ID: -1 lifts the contact
    | AbsMtPositionX
    | AbsMtPositionY
    | AbsX               // single-touch mirror of slot 0
    | AbsY
    | BtnTouch           // EV_KEY BTN_TOUCH
    | Key(code: int)     // EV_KEY with a key code taken from the wire, unfiltered

  /** One device primitive: a `dev.write` or the `dev.syn()` barrier. */
  datatype Prim = Write(ch: Channel, value: int) | Syn

  /** The state after one event and what the event wrote, in order. */
  datatype Step = Step(active: set<int>, prims: seq<Prim>)

  predicate IsPointerKind(kind: int) {
    kind == EVT_MOUSE_MOVE || kind == EVT_MOUSE_DOWN || kind == EVT_MOUSE_UP
  }

  predicate IsKnownKind(kind: int) {
    0 <= kind <= EVT_KEY_UP
  }

  /** Every slot lies in the range the device declares for ABS_MT_SLOT. */
  predicate SlotsInRange(active: set<int>) {
    forall s :: s in active ==> 0 <= s < MAX_TOUCH_SLOTS
  }

  function Max(a: int, b: int): int { if a < b then b else a }
  function Min(a: int, b: int): int { if a < b then a else b }

  /** `slot = max(0, min(9, arg3))`: the slot the event is applied to. */
  function ClampSlot(arg3: int): (s: int)
    ensures 0 <= s < MAX_TOUCH_SLOTS
    ensures 0 <= arg3 < MAX_TOUCH_SLOTS ==> s == arg3
    ensures arg3 < 0 ==> s == 0
    ensures arg3 >= MAX_TOUCH_SLOTS ==> s == MAX_TOUCH_SLOTS - 1
  {
    Max(0, Min(MAX_TOUCH_SLOTS - 1, arg3))
  }

  /** The single-touch X/Y mirror, written only for slot 0. */
  function Mirror(s: int, x: int, y: int): seq<Prim> {
    if s == 0 then [Write(AbsX, x), Write(AbsY, y)] else []
  }

  /** The BTN_TOUCH write, present when `fires` holds. */
  function Edge(fires: bool, value: int): seq<Prim> {
    if fires then [Write(BtnTouch, value)] else []
  }

  /** `handle_event`. DOWN adds the slot and UP discards it; every other kind
      leaves the set alone. Unknown kinds (above KEY_UP) write nothing; every
      other kind ends its writes with exactly one barrier. */
  function HandleEvent(active: set<int>, e: Event): (r: Step)
    ensures e.kind == EVT_MOUSE_DOWN ==> r.active == active + {ClampSlot(e.arg3)}
    ensures e.kind == EVT_MOUSE_UP ==> r.active == active - {ClampSlot(e.arg3)}
    ensures e.kind != EVT_MOUSE_DOWN && e.kind != EVT_MOUSE_UP ==> r.active == active
    ensures SlotsInRange(active) ==> SlotsInRange(r.active)
    ensures r.prims == [] <==> !IsKnownKind(e.kind)
    ensures r.prims != [] ==> Barriered(r.prims)
    ensures IsPointerKind(e.kind) ==> r.prims[0] == Write(AbsMtSlot, ClampSlot(e.arg3))
  {
    var s := ClampSlot(e.arg3);
    var x, y := e.arg1 as int, e.arg2 as int;
    if e.kind == EVT_MOUSE_MOVE then
      Step(active, MovePrims(s, x, y))
    else if e.kind == EVT_MOUSE_DOWN then
      var active' := active + {s};
      Step(active', DownPrims(s, x, y, |active'| == 1))
    else if e.kind == EVT_MOUSE_UP then
      var active' := active - {s};
      Step(active', UpPrims(s, active' == {}))
    else if e.kind == EVT_KEY_DOWN then
      Closed([Write(Key(x), 1)]);
      Step(active, [Write(Key(x), 1), Syn])
    else if e.kind == EVT_KEY_UP then
      Closed([Write(Key(x), 0)]);
      Step(active, [Write(Key(x), 0), Syn])
    else
      Step(active, [])
  }

  /** A batch of writes closed by exactly one barrier, at its end. */
  predicate Barriered(prims: seq<Prim>) {
    prims != [] && prims[|prims| - 1] == Syn && Syn !in prims[..|prims| - 1]
  }

  lemma Closed(body: seq<Prim>)
    requires Syn !in body
    ensures Barriered(body + [Syn])
  {
    assert (body + [Syn])[..|body|] == body;
  }

  /** What a MOVE writes: the slot, the position, the slot-0 mirror. */
  function MovePrims(s: int, x: int, y: int): (r: seq<Prim>)
    ensures Barriered(r) && r[0] == Write(AbsMtSlot, s)
  {
    var body := [Write(AbsMtSlot, s), Write(AbsMtPositionX, x), Write(AbsMtPositionY, y)] + Mirror(s, x, y);
    Closed(body);
    body + [Syn]
  }

  /** What a DOWN writes: the slot, its tracking id, the position, the press
      edge when `fires`, the slot-0 mirror. */
  function DownPrims(s: int, x: int, y: int, fires: bool): (r: seq<Prim>)
    ensures Barriered(r) && r[0] == Write(AbsMtSlot, s)
  {
    var body := [Write(AbsMtSlot, s), Write(AbsMtTrackingId, s), Write(AbsMtPositionX, x), Write(AbsMtPositionY, y)]
                + Edge(fires, 1) + Mirror(s, x, y);
    Closed(body);
    body + [Syn]
  }

  /** What an UP writes: the slot, the lift, the release edge when `fires`. */
  function UpPrims(s: int, fires: bool): (r: seq<Prim>)
    ensures Barriered(r) && r[0] == Write(AbsMtSlot, s)
  {
    var body := [Write(AbsMtSlot, s), Write(AbsMtTrackingId, -1)] + Edge(fires, 0);
    Closed(body);
    body + [Syn]
  }

  // ---------------------------------------------------------------------
  // Per-channel view of an emission
  // ---------------------------------------------------------------------

  /** The values one primitive writes to channel `ch`. */
  function One(p: Prim, ch: Channel): seq<int> {
    if p.Write? && p.ch == ch then [p.value] else []
  }

  /** The values written to channel `ch`, in order. */
  function Writes(prims: seq<Prim>, ch: Channel): seq<int> {
    if prims == [] then [] else One(prims[0], ch) + Writes(prims[1..], ch)
  }

  lemma {:induction false} WritesAppend(a: seq<Prim>, b: seq<Prim>, ch: Channel)
    ensures Writes(a + b, ch) == Writes(a, ch) + Writes(b, ch)
  {
    if a == [] {
      assert a + b == b;
    } else {
      assert (a + b)[0] == a[0];
      assert (a + b)[1..] == a[1..] + b;
      WritesAppend(a[1..], b, ch);
    }
  }

  lemma WritesCons(p: Prim, rest: seq<Prim>, ch: Channel)
    ensures Writes([p] + rest, ch) == One(p, ch) + Writes(rest, ch)
  {
    assert ([p] + rest)[1..] == rest;
  }

  lemma Writes1(d: Prim, ch: Channel)
    ensures Writes([d], ch) == One(d, ch)
  {
    WritesCons(d, [], ch);
    assert [d] == [d] + [];
  }

  lemma Writes2(c: Prim, d: Prim, ch: Channel)
    ensures Writes([c, d], ch) == One(c, ch) + One(d, ch)
  {
    WritesCons(c, [d], ch);
    Writes1(d, ch);
    assert [c, d] == [c] + [d];
  }

  lemma Writes3(b: Prim, c: Prim, d: Prim, ch: Channel)
    ensures Writes([b, c, d], ch) == One(b, ch) + One(c, ch) + One(d, ch)
  {
    WritesCons(b, [c, d], ch);
    Writes2(c, d, ch);
    assert [b, c, d] == [b] + [c, d];
  }

  lemma Writes4(a: Prim, b: Prim, c: Prim, d: Prim, ch: Channel)
    ensures Writes([a, b, c, d], ch) == One(a, ch) + One(b, ch) + One(c, ch) + One(d, ch)
  {
    WritesCons(a, [b, c, d], ch);
    Writes3(b, c, d, ch);
    assert [a, b, c, d] == [a] + [b, c, d];
  }

  /** What one event writes to each channel, stated channel by channel. The
      press edge fires exactly when every slot active before a DOWN is the
      touched one (the set after it has one element); the release edge exactly
      when every slot active before an UP is the lifted one (the set after it
      is empty). Positions are passed through unclamped and key codes
      unfiltered. */
  function ChannelSpec(active: set<int>, e: Event, ch: Channel): seq<int> {
    var s := ClampSlot(e.arg3);
    var moveOrDown := e.kind == EVT_MOUSE_MOVE || e.kind == EVT_MOUSE_DOWN;
    match ch
    case AbsMtSlot => if IsPointerKind(e.kind) then [s] else []
    case AbsMtTrackingId =>
      if e.kind == EVT_MOUSE_DOWN then [s] else if e.kind == EVT_MOUSE_UP then [-1] else []
    case AbsMtPositionX => if moveOrDown then [e.arg1 as int] else []
    case AbsMtPositionY => if moveOrDown then [e.arg2 as int] else []
    case AbsX => if moveOrDown && s == 0 then [e.arg1 as int] else []
    case AbsY => if moveOrDown && s == 0 then [e.arg2 as int] else []
    case BtnTouch =>
      if e.kind == EVT_MOUSE_DOWN && active <= {s} then [1]
      else if e.kind == EVT_MOUSE_UP && active <= {s} then [0]
      else []
    case Key(code) =>
      if e.kind == EVT_KEY_DOWN && code == e.arg1 then [1]
      else if e.kind == EVT_KEY_UP && code == e.arg1 then [0]
      else []
  }

  /** `HandleEvent` writes to every channel what `ChannelSpec` says. */
  lemma HandleEventWrites(active: set<int>, e: Event, ch: Channel)
    ensures Writes(HandleEvent(active, e).prims, ch) == ChannelSpec(active, e, ch)
  {
    if e.kind == EVT_MOUSE_MOVE {
      MoveWrites(active, e, ch);
    } else if e.kind == EVT_MOUSE_DOWN {
      DownWrites(active, e, ch);
    } else if e.kind == EVT_MOUSE_UP {
      UpWrites(active, e, ch);
    } else if e.kind == EVT_KEY_DOWN || e.kind == EVT_KEY_UP {
      KeyWrites(active, e, ch);
    }
  }

  lemma KeyWrites(active: set<int>, e: Event, ch: Channel)
    requires e.kind == EVT_KEY_DOWN || e.kind == EVT_KEY_UP
    ensures Writes(HandleEvent(active, e).prims, ch) == ChannelSpec(active, e, ch)
  {
    var v := if e.kind == EVT_KEY_DOWN then 1 else 0;
    assert HandleEvent(active, e).prims == [Write(Key(e.arg1 as int), v), Syn];
    Writes2(Write(Key(e.arg1 as int), v), Syn, ch);
  }

  lemma MirrorWrites(s: int, x: int, y: int, ch: Channel)
    ensures Writes(Mirror(s, x, y), ch)
      == (if s == 0 then One(Write(AbsX, x), ch) + One(Write(AbsY, y), ch) else [])
  {
    Writes2(Write(AbsX, x), Write(AbsY, y), ch);
  }

  lemma EdgeWrites(fires: bool, value: int, ch: Channel)
    ensures Writes(Edge(fires, value), ch) == (if fires then One(Write(BtnTouch, value), ch) else [])
  {
    Writes1(Write(BtnTouch, value), ch);
  }

  // MOVE

  lemma MoveShape(active: set<int>, e: Event)
    requires e.kind == EVT_MOUSE_MOVE
    ensures HandleEvent(active, e).prims == MovePrims(ClampSlot(e.arg3), e.arg1 as int, e.arg2 as int)
  {
  }

  lemma MovePrimsWrites(s: int, x: int, y: int, ch: Channel)
    ensures Writes(MovePrims(s, x, y), ch)
      == One(Write(AbsMtSlot, s), ch) + One(Write(AbsMtPositionX, x), ch) + One(Write(AbsMtPositionY, y), ch)
         + (if s == 0 then One(Write(AbsX, x), ch) + One(Write(AbsY, y), ch) else [])
  {
    var head := [Write(AbsMtSlot, s), Write(AbsMtPositionX, x), Write(AbsMtPositionY, y)];
    Writes3(head[0], head[1], head[2], ch);
    MirrorWrites(s, x, y, ch);
    Writes1(Syn, ch);
    WritesAppend(head + Mirror(s, x, y), [Syn], ch);
    WritesAppend(head, Mirror(s, x, y), ch);
  }

  lemma MoveSpec(active: set<int>, e: Event, ch: Channel)
    requires e.kind == EVT_MOUSE_MOVE
    ensures var s, x, y := ClampSlot(e.arg3), e.arg1 as int, e.arg2 as int;
      ChannelSpec(active, e, ch)
        == One(Write(AbsMtSlot, s), ch) + One(Write(AbsMtPositionX, x), ch) + One(Write(AbsMtPositionY, y), ch)
           + (if s == 0 then One(Write(AbsX, x), ch) + One(Write(AbsY, y), ch) else [])
  {
  }

  lemma MoveWrites(active: set<int>, e: Event, ch: Channel)
    requires e.kind == EVT_MOUSE_MOVE
    ensures Writes(HandleEvent(active, e).prims, ch) == ChannelSpec(active, e, ch)
  {
    MoveShape(active, e);
    MovePrimsWrites(ClampSlot(e.arg3), e.arg1 as int, e.arg2 as int, ch);
    MoveSpec(active, e, ch);
  }

  // DOWN

  lemma DownShape(active: set<int>, e: Event)
    requires e.kind == EVT_MOUSE_DOWN
    ensures var s := ClampSlot(e.arg3);
      HandleEvent(active, e).prims == DownPrims(s, e.arg1 as int, e.arg2 as int, |active + {s}| == 1)
  {
  }

  lemma DownPrimsWrites(s: int, x: int, y: int, fires: bool, ch: Channel)
    ensures Writes(DownPrims(s, x, y, fires), ch)
      == One(Write(AbsMtSlot, s), ch) + One(Write(AbsMtTrackingId, s), ch)
         + One(Write(AbsMtPositionX, x), ch) + One(Write(AbsMtPositionY, y), ch)
         + (if fires then One(Write(BtnTouch, 1), ch) else [])
         + (if s == 0 then One(Write(AbsX, x), ch) + One(Write(AbsY, y), ch) else [])
  {
    var head := [Write(AbsMtSlot, s), Write(AbsMtTrackingId, s),
                 Write(AbsMtPositionX, x), Write(AbsMtPositionY, y)];
    var edge := Edge(fires, 1);
    Writes4(head[0], head[1], head[2], head[3], ch);
    EdgeWrites(fires, 1, ch);
    MirrorWrites(s, x, y, ch);
    Writes1(Syn, ch);
    WritesAppend(head + edge + Mirror(s, x, y), [Syn], ch);
    WritesAppend(head + edge, Mirror(s, x, y), ch);
    WritesAppend(head, edge, ch);
  }

  lemma DownSpec(active: set<int>, e: Event, ch: Channel)
    requires e.kind == EVT_MOUSE_DOWN
    ensures var s, x, y := ClampSlot(e.arg3), e.arg1 as int, e.arg2 as int;
      ChannelSpec(active, e, ch)
        == One(Write(AbsMtSlot, s), ch) + One(Write(AbsMtTrackingId, s), ch)
           + One(Write(AbsMtPositionX, x), ch) + One(Write(AbsMtPositionY, y), ch)
           + (if active <= {s} then One(Write(BtnTouch, 1), ch) else [])
           + (if s == 0 then One(Write(AbsX, x), ch) + One(Write(AbsY, y), ch) else [])
  {
  }

  lemma DownWrites(active: set<int>, e: Event, ch: Channel)
    requires e.kind == EVT_MOUSE_DOWN
    ensures Writes(HandleEvent(active, e).prims, ch) == ChannelSpec(active, e, ch)
  {
    var s := ClampSlot(e.arg3);
    DownShape(active, e);
    SingletonAfterInsert(active, s);
    DownPrimsWrites(s, e.arg1 as int, e.arg2 as int, |active + {s}| == 1, ch);
    DownSpec(active, e, ch);
  }

  // UP

  lemma UpShape(active: set<int>, e: Event)
    requires e.kind == EVT_MOUSE_UP
    ensures var s := ClampSlot(e.arg3);
      HandleEvent(active, e).prims == UpPrims(s, active - {s} == {})
  {
  }

  lemma UpPrimsWrites(s: int, fires: bool, ch: Channel)
    ensures Writes(UpPrims(s, fires), ch)
      == One(Write(AbsMtSlot, s), ch) + One(Write(AbsMtTrackingId, -1), ch)
         + (if fires then One(Write(BtnTouch, 0), ch) else [])
  {
    var head := [Write(AbsMtSlot, s), Write(AbsMtTrackingId, -1)];
    var edge := Edge(fires, 0);
    Writes2(head[0], head[1], ch);
    EdgeWrites(fires, 0, ch);
    Writes1(Syn, ch);
    WritesAppend(head + edge, [Syn], ch);
    WritesAppend(head, edge, ch);
  }

  lemma UpSpec(active: set<int>, e: Event, ch: Channel)
    requires e.kind == EVT_MOUSE_UP
    ensures var s := ClampSlot(e.arg3);
      ChannelSpec(active, e, ch)
        == One(Write(AbsMtSlot, s), ch) + One(Write(AbsMtTrackingId, -1), ch)
           + (if active <= {s} then One(Write(BtnTouch, 0), ch) else [])
  {
  }

  lemma UpWrites(active: set<int>, e: Event, ch: Channel)
    requires e.kind == EVT_MOUSE_UP
    ensures Writes(HandleEvent(active, e).prims, ch) == ChannelSpec(active, e, ch)
  {
    var s := ClampSlot(e.arg3);
    UpShape(active, e);
    EmptyAfterRemove(active, s);
    UpPrimsWrites(s, active - {s} == {}, ch);
    UpSpec(active, e, ch);
  }

  /** After removing `s`, the set is empty exactly when every element it had
      was `s`. */
  lemma EmptyAfterRemove(active: set<int>, s: int)
    ensures active - {s} == {} <==> active <= {s}
  {
    if t :| t in active && t != s {
      assert t in active - {s};
    }
  }

  /** After inserting `s`, the set has one element exactly when every element
      it had before was `s`. */
  lemma SingletonAfterInsert(active: set<int>, s: int)
    ensures |active + {s}| == 1 <==> active <= {s}
  {
    if t :| t in active && t != s {
      assert {s, t} <= active + {s};
      assert |{s, t}| == 2;
      SubsetCard({s, t}, active + {s});
    } else {
      assert forall o :: o in active ==> o == s;
      assert forall o :: o in active + {s} <==> o in {s};
      assert active + {s} == {s};
    }
  }

  lemma SubsetCard<T>(a: set<T>, b: set<T>)
    requires a <= b
    ensures |a| <= |b|
  {
    assert b == a + (b - a);
  }

  // ---------------------------------------------------------------------
  // Runs of events
  // ---------------------------------------------------------------------

  function SlotOf(e: Event): int {
    ClampSlot(e.arg3)
  }

  /** The slots touched by the DOWN (resp. UP) events of a run. */
  function KindSlots(evs: seq<Event>, kind: int): set<int> {
    set i | 0 <= i < |evs| && evs[i].kind == kind :: SlotOf(evs[i])
  }

  lemma KindSlotsCons(evs: seq<Event>, kind: int)
    requires evs != []
    ensures KindSlots(evs, kind)
      == (if evs[0].kind == kind then {SlotOf(evs[0])} else {}) + KindSlots(evs[1..], kind)
  {
    var rest := evs[1..];
    forall t | t in KindSlots(rest, kind)
      ensures t in KindSlots(evs, kind)
    {
      var i :| 0 <= i < |rest| && rest[i].kind == kind && t == SlotOf(rest[i]);
      assert evs[i + 1] == rest[i];
    }
    forall t | t in KindSlots(evs, kind)
      ensures t in (if evs[0].kind == kind then {SlotOf(evs[0])} else {}) + KindSlots(rest, kind)
    {
      var i :| 0 <= i < |evs| && evs[i].kind == kind && t == SlotOf(evs[i]);
      if i > 0 {
        assert rest[i - 1] == evs[i];
      }
    }
  }

  /** Applies decoded events in order, threading the active set: the
      transports' `for each record: handle_event(...)`. The set gains only
      slots of DOWN events and loses only slots of UP events. */
  function ApplyAll(active: set<int>, evs: seq<Event>): (r: Step)
    ensures SlotsInRange(active) ==> SlotsInRange(r.active)
    ensures r.active <= active + KindSlots(evs, EVT_MOUSE_DOWN)
    ensures active - KindSlots(evs, EVT_MOUSE_UP) <= r.active
    decreases |evs|
  {
    if evs == [] then Step(active, [])
    else
      var first := HandleEvent(active, evs[0]);
      var rest := ApplyAll(first.active, evs[1..]);
      KindSlotsCons(evs, EVT_MOUSE_DOWN);
      KindSlotsCons(evs, EVT_MOUSE_UP);
      Step(rest.active, first.prims + rest.prims)
  }

  /** One step of a run: the first event, then the rest from its set. */
  lemma ApplyAllCons(active: set<int>, evs: seq<Event>)
    requires evs != []
    ensures var first := HandleEvent(active, evs[0]);
      var rest := ApplyAll(first.active, evs[1..]);
      ApplyAll(active, evs) == Step(rest.active, first.prims + rest.prims)
  {
  }

  predicate AllOfKind(evs: seq<Event>, kind: int) {
    forall i :: 0 <= i < |evs| ==> evs[i].kind == kind
  }

  predicate DistinctSlots(evs: seq<Event>) {
    forall i, j :: 0 <= i < j < |evs| ==> SlotOf(evs[i]) != SlotOf(evs[j])
  }

  /** The tail of a run of one kind on distinct slots is again such a run,
      and the head's slot is not among the tail's. */
  lemma RunTail(evs: seq<Event>, kind: int)
    requires evs != [] && AllOfKind(evs, kind) && DistinctSlots(evs)
    ensures AllOfKind(evs[1..], kind) && DistinctSlots(evs[1..])
    ensures SlotOf(evs[0]) !in KindSlots(evs[1..], kind)
    ensures KindSlots(evs, kind) == {SlotOf(evs[0])} + KindSlots(evs[1..], kind)
  {
    var rest := evs[1..];
    forall i | 0 <= i < |rest|
      ensures rest[i].kind == kind && SlotOf(rest[i]) != SlotOf(evs[0])
    {
      assert rest[i] == evs[i + 1];
    }
    forall i, j | 0 <= i < j < |rest|
      ensures SlotOf(rest[i]) != SlotOf(rest[j])
    {
      assert rest[i] == evs[i + 1] && rest[j] == evs[j + 1];
    }
    KindSlotsCons(evs, kind);
  }

  /** What a DOWN writes to BTN_TOUCH and the set it leaves. */
  lemma DownStep(active: set<int>, e: Event)
    requires e.kind == EVT_MOUSE_DOWN
    ensures Writes(HandleEvent(active, e).prims, BtnTouch) == (if active <= {SlotOf(e)} then [1] else [])
    ensures HandleEvent(active, e).active == active + {SlotOf(e)}
  {
    HandleEventWrites(active, e, BtnTouch);
  }

  /** What an UP writes to BTN_TOUCH and the set it leaves. */
  lemma UpStep(active: set<int>, e: Event)
    requires e.kind == EVT_MOUSE_UP
    ensures Writes(HandleEvent(active, e).prims, BtnTouch) == (if active <= {SlotOf(e)} then [0] else [])
    ensures HandleEvent(active, e).active == active - {SlotOf(e)}
  {
    HandleEventWrites(active, e, BtnTouch);
  }

  /** A run's BTN_TOUCH writes: the first event's, then the rest's. */
  lemma RunWrites(active: set<int>, evs: seq<Event>)
    requires evs != []
    ensures Writes(ApplyAll(active, evs).prims, BtnTouch)
      == Writes(HandleEvent(active, evs[0]).prims, BtnTouch)
         + Writes(ApplyAll(HandleEvent(active, evs[0]).active, evs[1..]).prims, BtnTouch)
    ensures ApplyAll(active, evs).active == ApplyAll(HandleEvent(active, evs[0]).active, evs[1..]).active
  {
    var first := HandleEvent(active, evs[0]);
    WritesAppend(first.prims, ApplyAll(first.active, evs[1..]).prims, BtnTouch);
  }

  /** Further fingers landing on distinct free slots while one is already
      down never write BTN_TOUCH. */
  lemma {:induction false} DownsWhileTouching(active: set<int>, evs: seq<Event>)
    requires active != {}
    requires AllOfKind(evs, EVT_MOUSE_DOWN) && DistinctSlots(evs)
    requires KindSlots(evs, EVT_MOUSE_DOWN) !! active
    ensures Writes(ApplyAll(active, evs).prims, BtnTouch) == []
    ensures ApplyAll(active, evs).active == active + KindSlots(evs, EVT_MOUSE_DOWN)
    decreases |evs|
  {
    if evs != [] {
      var s := SlotOf(evs[0]);
      RunTail(evs, EVT_MOUSE_DOWN);
      FreshSlot(active, s, KindSlots(evs, EVT_MOUSE_DOWN), KindSlots(evs[1..], EVT_MOUSE_DOWN));
      DownsWhileTouching(active + {s}, evs[1..]);
      DownWhileTouchingStep(active, evs[0], ApplyAll(active + {s}, evs[1..]));
      RunWrites(active, evs);
    }
  }

  /** Taking a fresh slot `s` out of a set `k` of slots fresh to `active`. */
  lemma FreshSlot(active: set<int>, s: int, k: set<int>, rest: set<int>)
    requires k == {s} + rest && s !in rest && k !! active
    ensures s !in active && rest !! active + {s} && active + k == active + {s} + rest
  {
    assert s in k;
  }

  /** One DOWN on a free slot while another slot is down, followed by a run
      that writes no BTN_TOUCH, writes none either. */
  lemma DownWhileTouchingStep(active: set<int>, e: Event, after: Step)
    requires active != {} && e.kind == EVT_MOUSE_DOWN && SlotOf(e) !in active
    requires Writes(after.prims, BtnTouch) == []
    ensures HandleEvent(active, e).active == active + {SlotOf(e)}
    ensures Writes(HandleEvent(active, e).prims, BtnTouch) + Writes(after.prims, BtnTouch) == []
  {
    DownStep(active, e);
    assert !(active <= {SlotOf(e)});
  }

  /** N fingers landing on distinct slots from an untouched screen write
      exactly one BTN_TOUCH, a press, on the first DOWN. */
  lemma DistinctDownsPressOnce(evs: seq<Event>)
    requires evs != []
    requires AllOfKind(evs, EVT_MOUSE_DOWN) && DistinctSlots(evs)
    ensures Writes(ApplyAll({}, evs).prims, BtnTouch) == [1]
    ensures ApplyAll({}, evs).active == KindSlots(evs, EVT_MOUSE_DOWN)
  {
    var s := SlotOf(evs[0]);
    var rest := evs[1..];
    var first := HandleEvent({}, evs[0]);
    assert first.active == {s} && Writes(first.prims, BtnTouch) == [1] by {
      DownStep({}, evs[0]);
    }
    assert Writes(ApplyAll({s}, rest).prims, BtnTouch) == []
        && ApplyAll({s}, rest).active == KindSlots(evs, EVT_MOUSE_DOWN) by {
      RunTail(evs, EVT_MOUSE_DOWN);
      DownsWhileTouching({s}, rest);
    }
    RunWrites({}, evs);
  }

  /** Lifting every active finger, each from its own slot, writes exactly one
      BTN_TOUCH, a release, on the last UP. */
  lemma {:induction false} MatchingUpsReleaseOnce(active: set<int>, evs: seq<Event>)
    requires evs != []
    requires AllOfKind(evs, EVT_MOUSE_UP) && DistinctSlots(evs)
    requires KindSlots(evs, EVT_MOUSE_UP) == active
    ensures Writes(ApplyAll(active, evs).prims, BtnTouch) == [0]
    ensures ApplyAll(active, evs).active == {}
    decreases |evs|
  {
    var s := SlotOf(evs[0]);
    var rest := evs[1..];
    var first := HandleEvent(active, evs[0]);
    RunTail(evs, EVT_MOUSE_UP);
    assert first.active == KindSlots(rest, EVT_MOUSE_UP) by {
      UpStep(active, evs[0]);
    }
    if rest == [] {
      assert Writes(first.prims, BtnTouch) == [0] by {
        assert active <= {s};
        UpStep(active, evs[0]);
      }
    } else {
      assert Writes(first.prims, BtnTouch) == [] by {
        assert SlotOf(rest[0]) in KindSlots(rest, EVT_MOUSE_UP);
        assert !(active <= {s});
        UpStep(active, evs[0]);
      }
      MatchingUpsReleaseOnce(first.active, rest);
    }
    RunWrites(active, evs);
  }

  // ---------------------------------------------------------------------
  // Scenarios and quirks of the edge rule
  // ---------------------------------------------------------------------

  function Touch(kind: byte, x: i16, y: i16, slot: i16): Event {
    Event(kind, 0, x, y, slot, 0)
  }

  /** A single tap on slot 0 from an untouched screen, in write order. The
      press edge is written before the single-touch mirror. */
  lemma SingleTap()
    ensures var down := HandleEvent({}, Touch(EVT_MOUSE_DOWN, 100, 200, 0));
      && down.active == {0}
      && down.prims == [Write(AbsMtSlot, 0), Write(AbsMtTrackingId, 0),
                        Write(AbsMtPositionX, 100), Write(AbsMtPositionY, 200),
                        Write(BtnTouch, 1), Write(AbsX, 100), Write(AbsY, 200), Syn]
      && HandleEvent(down.active, Touch(EVT_MOUSE_UP, 100, 200, 0))
         == Step({}, [Write(AbsMtSlot, 0), Write(AbsMtTrackingId, -1), Write(BtnTouch, 0), Syn])
  {
    assert |{0}| == 1;
  }

  /** Datagram boundaries do not matter: applying two runs one after the other
      is applying their concatenation. */
  lemma {:induction false} ApplyAllAppend(active: set<int>, xs: seq<Event>, ys: seq<Event>)
    ensures var first := ApplyAll(active, xs);
      var second := ApplyAll(first.active, ys);
      ApplyAll(active, xs + ys) == Step(second.active, first.prims + second.prims)
    decreases |xs|
  {
    if xs == [] {
      assert xs + ys == ys;
    } else {
      ApplyAllAppend(HandleEvent(active, xs[0]).active, xs[1..], ys);
      ApplyAllAppendStep(active, xs, ys);
    }
  }

  /** The inductive step of `ApplyAllAppend`, given the claim for the tail. */
  lemma ApplyAllAppendStep(active: set<int>, xs: seq<Event>, ys: seq<Event>)
    requires xs != []
    requires var first := ApplyAll(HandleEvent(active, xs[0]).active, xs[1..]);
      ApplyAll(HandleEvent(active, xs[0]).active, xs[1..] + ys)
        == Step(ApplyAll(first.active, ys).active, first.prims + ApplyAll(first.active, ys).prims)
    ensures var first := ApplyAll(active, xs);
      var second := ApplyAll(first.active, ys);
      ApplyAll(active, xs + ys) == Step(second.active, first.prims + second.prims)
  {
    var h := HandleEvent(active, xs[0]);
    var t := ApplyAll(h.active, xs[1..]);
    var t2 := ApplyAll(t.active, ys);
    ApplyAllConsAppend(active, xs, ys);
    ApplyAllCons(active, xs);
    StepAssoc(ApplyAll(active, xs + ys), ApplyAll(h.active, xs[1..] + ys), t2, t, ApplyAll(active, xs), h.prims);
  }

  lemma StepAssoc(a: Step, w: Step, t2: Step, t: Step, b: Step, h: seq<Prim>)
    requires a == Step(w.active, h + w.prims)
    requires w == Step(t2.active, t.prims + t2.prims)
    requires b == Step(t.active, h + t.prims)
    ensures a == Step(t2.active, b.prims + t2.prims)
  {
    assert h + (t.prims + t2.prims) == (h + t.prims) + t2.prims;
  }

  /** `ApplyAllCons` for a run that starts with `xs`. */
  lemma ApplyAllConsAppend(active: set<int>, xs: seq<Event>, ys: seq<Event>)
    requires xs != []
    ensures var h := HandleEvent(active, xs[0]);
      var whole := ApplyAll(h.active, xs[1..] + ys);
      ApplyAll(active, xs + ys) == Step(whole.active, h.prims + whole.prims)
  {
    assert (xs + ys)[0] == xs[0] && (xs + ys)[1..] == xs[1..] + ys;
    ApplyAllCons(active, xs + ys);
  }

  /** A gesture: fingers land on distinct slots, then exactly those fingers
      lift. BTN_TOUCH is written exactly twice, a press then a release, and
      the screen ends untouched. */
  lemma {:induction false} GesturePressesAndReleasesOnce(downs: seq<Event>, ups: seq<Event>)
    requires downs != [] && AllOfKind(downs, EVT_MOUSE_DOWN) && DistinctSlots(downs)
    requires AllOfKind(ups, EVT_MOUSE_UP) && DistinctSlots(ups)
    requires KindSlots(ups, EVT_MOUSE_UP) == KindSlots(downs, EVT_MOUSE_DOWN)
    ensures Writes(ApplyAll({}, downs + ups).prims, BtnTouch) == [1, 0]
    ensures ApplyAll({}, downs + ups).active == {}
  {
    DistinctDownsPressOnce(downs);
    var d := ApplyAll({}, downs);
    assert ups != [] by {
      assert SlotOf(downs[0]) in KindSlots(downs, EVT_MOUSE_DOWN);
    }
    MatchingUpsReleaseOnce(d.active, ups);
    ApplyAllAppend({}, downs, ups);
    WritesAppend(d.prims, ApplyAll(d.active, ups).prims, BtnTouch);
  }

  /** In a DOWN on slot 0 that presses, the press is written after the
      multi-touch position and before the single-touch mirror. */
  lemma PressBeforeMirror(active: set<int>, e: Event)
    requires e.kind == EVT_MOUSE_DOWN && SlotOf(e) == 0 && active <= {0}
    ensures var p := HandleEvent(active, e).prims;
      && |p| == 8
      && p[3] == Write(AbsMtPositionY, e.arg2 as int)
      && p[4] == Write(BtnTouch, 1)
      && p[5] == Write(AbsX, e.arg1 as int)
  {
    SingletonAfterInsert(active, 0);
  }

  /** The press edge is not a strict 0-to-1 transition: a repeated DOWN on the
      only active slot writes the press again. */
  lemma RepeatedDownRepeatsPress(e: Event)
    requires e.kind == EVT_MOUSE_DOWN
    ensures Writes(HandleEvent({SlotOf(e)}, e).prims, BtnTouch) == [1]
  {
    HandleEventWrites({SlotOf(e)}, e, BtnTouch);
  }

  /** Nor is the release a strict 1-to-0 transition: an UP with no finger down
      writes the release again. */
  lemma UpOnEmptyRepeatsRelease(e: Event)
    requires e.kind == EVT_MOUSE_UP
    ensures Writes(HandleEvent({}, e).prims, BtnTouch) == [0]
  {
    HandleEventWrites({}, e, BtnTouch);
  }

  /** The injector is created once and shared by every viewer, and nothing
      releases the contacts a viewer leaves behind when it disconnects. With
      slot 1 left active, the next viewer's tap on slot 0 writes neither a
      press nor a release, and slot 1 stays active. */
  lemma StaleContactMasksTap()
    ensures var down := HandleEvent({1}, Touch(EVT_MOUSE_DOWN, 5, 5, 0));
      var up := HandleEvent(down.active, Touch(EVT_MOUSE_UP, 5, 5, 0));
      && Writes(down.prims, BtnTouch) == [] && Writes(up.prims, BtnTouch) == []
      && up.active == {1}
  {
    HandleEventWrites({1}, Touch(EVT_MOUSE_DOWN, 5, 5, 0), BtnTouch);
    assert {1} + {0} == {0, 1};
    assert {0, 1} - {0} == {1};
    HandleEventWrites({0, 1}, Touch(EVT_MOUSE_UP, 5, 5, 0), BtnTouch);
  }
}

=== FILE: pointer.dfy ===
/**
  The desktop receiver's input side: window coordinates are scaled to the
  1280x720 stream and clamped, pygame key constants are translated to evdev
  key codes, and the pygame event pump turns window events into 13-byte
  records for the input server. The left mouse button plays a single finger
  on slot 0.
*/
module Pointer {
  import opened Wrappers
  import opened Wire

  // ---------------------------------------------------------------------
  // Coordinate mapping
  // ---------------------------------------------------------------------

  /** `int(a / b)` for a positive divisor: the quotient truncated toward zero
      (Python's `int()` of a float), unlike Dafny's `/` for negative `a`. */
  function TruncDiv(a: int, b: int): (q: int)
    requires b > 0
    ensures a >= 0 ==> 0 <= a - q * b < b
    ensures a < 0 ==> -b < a - q * b <= 0
  {
    if a >= 0 then a / b else -((-a) / b)
  }

  function Clamp(v: int, lo: int, hi: int): (r: int)
    requires lo <= hi
    ensures lo <= r <= hi
    ensures lo <= v <= hi ==> r == v
    ensures v < lo ==> r == lo
    ensures v > hi ==> r == hi
  {
    if v < lo then lo else if v > hi then hi else v
  }

  /** `map_mouse_coords(pos, window_size)`: scale to the stream size, truncate,
      and clamp into the frame. */
  function MapMouseCoords(wx: int, wy: int, ww: int, wh: int): (r: (int, int))
    requires ww > 0 && wh > 0
    ensures 0 <= r.0 < STREAM_WIDTH && 0 <= r.1 < STREAM_HEIGHT
  {
    (Clamp(TruncDiv(wx * STREAM_WIDTH, ww), 0, STREAM_WIDTH - 1),
     Clamp(TruncDiv(wy * STREAM_HEIGHT, wh), 0, STREAM_HEIGHT - 1))
  }

  /** Inside the window the mapping is the floor of the exact scaled
      position, so only the clamp of the far edge can apply. */
  lemma MapInsideWindow(wx: int, wy: int, ww: int, wh: int)
    requires 0 <= wx < ww && 0 <= wy < wh
    ensures MapMouseCoords(wx, wy, ww, wh) == ((wx * STREAM_WIDTH) / ww, (wy * STREAM_HEIGHT) / wh)
  {
    ScaledBelow(wx, ww, STREAM_WIDTH);
    ScaledBelow(wy, wh, STREAM_HEIGHT);
  }

  lemma ScaledBelow(w: int, size: int, stream: int)
    requires 0 <= w < size && stream > 0
    ensures 0 <= (w * stream) / size < stream
  {
    var q := (w * stream) / size;
    MulLess(w, size, stream);
    DivBelow(w * stream, size, stream);
  }

  lemma MulLess(w: int, size: int, stream: int)
    requires 0 <= w < size && stream > 0
    ensures 0 <= w * stream < size * stream
  {
  }

  /** `a < d * c` gives `a / d < c` for a non-negative `a`. */
  lemma DivBelow(a: int, d: int, c: int)
    requires 0 <= a < d * c && d > 0
    ensures 0 <= a / d < c
  {
    var q := a / d;
    assert a == d * q + a % d;
    if q >= c {
      MulMonotone(d, c, q);
    }
  }

  lemma MulMonotone(d: int, x: int, y: int)
    requires d > 0 && x <= y
    ensures d * x <= d * y
  {
    assert d * y - d * x == d * (y - x);
  }

  /** At the stream's own size the mapping is the identity on the frame. */
  lemma MapIdentityAtStreamSize(wx: int, wy: int)
    requires 0 <= wx < STREAM_WIDTH && 0 <= wy < STREAM_HEIGHT
    ensures MapMouseCoords(wx, wy, STREAM_WIDTH, STREAM_HEIGHT) == (wx, wy)
  {
  }

  lemma TruncDivMonotone(a: int, b: int, d: int)
    requires a <= b && d > 0
    ensures TruncDiv(a, d) <= TruncDiv(b, d)
  {
    if a >= 0 {
      DivMonotone(a, b, d);
    } else if b >= 0 {
      DivMonotone(0, -a, d);
      DivMonotone(0, b, d);
    } else {
      DivMonotone(-b, -a, d);
    }
  }

  lemma DivMonotone(a: nat, b: nat, d: int)
    requires a <= b && d > 0
    ensures a / d <= b / d
  {
    var qa, qb := a / d, b / d;
    assert a == d * qa + a % d;
    assert b == d * qb + b % d;
    if qa > qb {
      MulMonotone(d, qb + 1, qa);
    }
  }

  /** For a fixed window, moving right or down never moves the mapped point
      left or up. */
  lemma MapMonotone(wx1: int, wy1: int, wx2: int, wy2: int, ww: int, wh: int)
    requires ww > 0 && wh > 0 && wx1 <= wx2 && wy1 <= wy2
    ensures MapMouseCoords(wx1, wy1, ww, wh).0 <= MapMouseCoords(wx2, wy2, ww, wh).0
    ensures MapMouseCoords(wx1, wy1, ww, wh).1 <= MapMouseCoords(wx2, wy2, ww, wh).1
  {
    TruncDivMonotone(wx1 * STREAM_WIDTH, wx2 * STREAM_WIDTH, ww);
    TruncDivMonotone(wy1 * STREAM_HEIGHT, wy2 * STREAM_HEIGHT, wh);
  }

  // ---------------------------------------------------------------------
  // Key table
  // ---------------------------------------------------------------------

  /** The pygame key constants the table is built from: `K_a` (the letters
      follow contiguously), `K_0` (the digits follow contiguously) and the 43
      named keys in the order the table lists them, from `K_ESCAPE` to
      `K_SLASH`. */
  datatype PygameKeys = PygameKeys(a: int, zero: int, named: seq<int>)

  /** evdev codes of A..Z in alphabetical order (the evdev letter codes are
      not contiguous). */
  const LETTER_CODES: seq<int> := [30, 48, 46, 32, 18, 33, 34, 35, 23, 36, 37, 38, 50,
                                   49, 24, 25, 16, 19, 31, 20, 22, 47, 17, 45, 21, 44]

  /** evdev codes of 0..9: KEY_0 is 11, KEY_1..KEY_9 are 2..10. */
  const DIGIT_CODES: seq<int> := [11, 2, 3, 4, 5, 6, 7, 8, 9, 10]

  /** evdev codes of ESC, ENTER, SPACE, BACKSPACE, TAB, LEFTSHIFT,
      RIGHTSHIFT, LEFTCTRL, RIGHTCTRL, LEFTALT, RIGHTALT, UP, DOWN, LEFT,
      RIGHT, F1..F12, DELETE, HOME, END, PAGEUP, PAGEDOWN, MINUS, EQUAL,
      LEFTBRACE, RIGHTBRACE, SEMICOLON, APOSTROPHE, GRAVE, BACKSLASH, COMMA,
      DOT, SLASH. */
  const NAMED_CODES: seq<int> := [1, 28, 57, 14, 15, 42, 54, 29, 97, 56, 100, 103, 108, 105, 106,
                                  59, 60, 61, 62, 63, 64, 65, 66, 67, 68, 87, 88,
                                  111, 102, 107, 104, 109, 12, 13, 26, 27, 39, 40, 41, 43, 51, 52, 53]

  /** `first, first + 1, ..., first + n - 1`. */
  function Run(first: int, n: nat): (r: seq<int>)
    ensures |r| == n && forall i :: 0 <= i < n ==> r[i] == first + i
  {
    seq(n, i => first + i)
  }

  /** The pygame keys in the order the table assigns them: letters, digits,
      then the named keys. */
  function KeyOrder(k: PygameKeys): (r: seq<int>)
    ensures |r| == 36 + |k.named|
  {
    Run(k.a, 26) + Run(k.zero, 10) + k.named
  }

  /** The evdev codes in the same order. */
  const CODE_ORDER: seq<int> := LETTER_CODES + DIGIT_CODES + NAMED_CODES

  /** `m[keys[0]] = codes[0]; m[keys[1]] = codes[1]; ...` in order. */
  function Insert(m: map<int, int>, keys: seq<int>, codes: seq<int>): map<int, int>
    requires |keys| == |codes|
    decreases |keys|
  {
    if keys == [] then m else Insert(m[keys[0] := codes[0]], keys[1..], codes[1..])
  }

  /** `build_keymap`: the three assignment loops, letters then digits then
      named keys, into an empty dict. */
  function BuildKeymap(k: PygameKeys): (r: map<int, int>)
    requires |k.named| == |NAMED_CODES|
    ensures forall key :: key in r ==> r[key] in CODE_ORDER
  {
    InsertValuesAll(map[], KeyOrder(k), CODE_ORDER);
    Insert(map[], KeyOrder(k), CODE_ORDER)
  }

  /** After the insertions a key holds the code of its last occurrence, or
      its old entry when it does not occur. */
  lemma {:induction false} InsertLookup(m: map<int, int>, keys: seq<int>, codes: seq<int>, key: int)
    requires |keys| == |codes|
    ensures key !in keys ==> (key in m <==> key in Insert(m, keys, codes))
    ensures key !in keys && key in m ==> Insert(m, keys, codes)[key] == m[key]
    ensures forall j :: 0 <= j < |keys| && keys[j] == key && key !in keys[j + 1..] ==>
      key in Insert(m, keys, codes) && Insert(m, keys, codes)[key] == codes[j]
    decreases |keys|
  {
    if keys != [] {
      var m' := m[keys[0] := codes[0]];
      InsertLookup(m', keys[1..], codes[1..], key);
      forall j | 0 <= j < |keys| && keys[j] == key && key !in keys[j + 1..]
        ensures key in Insert(m, keys, codes) && Insert(m, keys, codes)[key] == codes[j]
      {
        if j > 0 {
          assert keys[1..][j - 1] == key && keys[1..][j..] == keys[j + 1..];
        } else {
          assert key !in keys[1..];
        }
      }
    }
  }

  /** Every entry the insertions leave is an old entry or one of `codes`. */
  lemma {:induction false} InsertValues(m: map<int, int>, keys: seq<int>, codes: seq<int>, key: int)
    requires |keys| == |codes|
    requires key in Insert(m, keys, codes)
    ensures (key in m && Insert(m, keys, codes)[key] == m[key]) || Insert(m, keys, codes)[key] in codes
    decreases |keys|
  {
    if keys != [] {
      var m' := m[keys[0] := codes[0]];
      InsertValues(m', keys[1..], codes[1..], key);
      if key in m' && Insert(m', keys[1..], codes[1..])[key] == m'[key] && key !in m {
        assert key == keys[0] && m'[key] == codes[0];
      }
    }
  }

  lemma InsertValuesAll(m: map<int, int>, keys: seq<int>, codes: seq<int>)
    requires |keys| == |codes|
    ensures forall key :: key in Insert(m, keys, codes) ==>
      (key in m && Insert(m, keys, codes)[key] == m[key]) || Insert(m, keys, codes)[key] in codes
  {
    forall key | key in Insert(m, keys, codes)
      ensures (key in m && Insert(m, keys, codes)[key] == m[key]) || Insert(m, keys, codes)[key] in codes
    {
      InsertValues(m, keys, codes, key);
    }
  }

  /** Every mapped code lies in [1, 111]: it passes the `if evdev_code:` gate
      and fits a record's i16 argument. */
  lemma KeymapCodesNonzero(k: PygameKeys, key: int)
    requires |k.named| == |NAMED_CODES|
    requires key in BuildKeymap(k)
    ensures BuildKeymap(k)[key] != 0
    ensures 0 < BuildKeymap(k)[key] <= 111
  {
    InsertValues(map[], KeyOrder(k), CODE_ORDER, key);
    CodesInRange(BuildKeymap(k)[key]);
  }

  lemma CodesInRange(c: int)
    requires c in CODE_ORDER
    ensures 0 < c <= 111
  {
    var i :| 0 <= i < |CODE_ORDER| && CODE_ORDER[i] == c;
    CodeOrderAt(i);
    if i < 26 {
      LetterCodesInRange();
    } else if i < 36 {
      DigitCodesInRange();
    } else {
      NamedCodesInRange();
    }
  }

  predicate AllInRange(codes: seq<int>) {
    forall i :: 0 <= i < |codes| ==> 0 < codes[i] <= 111
  }

  lemma LetterCodesInRange() ensures AllInRange(LETTER_CODES) {}
  lemma DigitCodesInRange() ensures AllInRange(DIGIT_CODES) {}
  lemma NamedCodesInRange() ensures AllInRange(NAMED_CODES) {}

  /** Where each table sits in `CODE_ORDER`. */
  lemma CodeOrderAt(i: int)
    requires 0 <= i < |CODE_ORDER|
    ensures |LETTER_CODES| == 26 && |DIGIT_CODES| == 10 && |CODE_ORDER| == 36 + |NAMED_CODES|
    ensures i < 26 ==> CODE_ORDER[i] == LETTER_CODES[i]
    ensures 26 <= i < 36 ==> CODE_ORDER[i] == DIGIT_CODES[i - 26]
    ensures 36 <= i ==> CODE_ORDER[i] == NAMED_CODES[i - 36]
  {
  }

  /** The letter whose evdev code is `code`, counted from A = 0; -1 for a
      code that is no letter's. */
  function LetterOf(code: int): int {
    if code == 30 then 0 else if code == 48 then 1 else if code == 46 then 2 else if code == 32 then 3
    else if code == 18 then 4 else if code == 33 then 5 else if code == 34 then 6 else if code == 35 then 7
    else if code == 23 then 8 else if code == 36 then 9 else if code == 37 then 10 else if code == 38 then 11
    else if code == 50 then 12 else if code == 49 then 13 else if code == 24 then 14 else if code == 25 then 15
    else if code == 16 then 16 else if code == 19 then 17 else if code == 31 then 18 else if code == 20 then 19
    else if code == 22 then 20 else if code == 47 then 21 else if code == 17 then 22 else if code == 45 then 23
    else if code == 21 then 24 else if code == 44 then 25 else -1
  }

  lemma LetterOfCode(i: int)
    requires 0 <= i < 26
    ensures LetterOf(LETTER_CODES[i]) == i
  {
  }

  /** The 26 letter codes are pairwise distinct. */
  lemma LetterCodesDistinct(i: int, j: int)
    requires 0 <= i < 26 && 0 <= j < 26 && i != j
    ensures LETTER_CODES[i] != LETTER_CODES[j]
  {
    LetterOfCode(i);
    LetterOfCode(j);
  }

  /** pygame's key constants never collide: the letter run, the digit run and
      the named keys are pairwise distinct. */
  predicate DistinctKeys(k: PygameKeys) {
    var s := KeyOrder(k);
    forall i, j :: 0 <= i < j < |s| ==> s[i] != s[j]
  }

  lemma LastOccurrence(s: seq<int>, i: nat)
    requires i < |s| && forall x, y :: 0 <= x < y < |s| ==> s[x] != s[y]
    ensures s[i] !in s[i + 1..]
  {
  }

  /** With distinct pygame constants, position `i` of the assignment order
      ends up holding the `i`-th code. */
  lemma KeymapAt(k: PygameKeys, i: nat)
    requires |k.named| == |NAMED_CODES| && DistinctKeys(k) && i < |KeyOrder(k)|
    ensures KeyOrder(k)[i] in BuildKeymap(k) && BuildKeymap(k)[KeyOrder(k)[i]] == CODE_ORDER[i]
  {
    LastOccurrence(KeyOrder(k), i);
    InsertLookup(map[], KeyOrder(k), CODE_ORDER, KeyOrder(k)[i]);
  }

  /** With distinct pygame constants, the `i`-th letter maps to the `i`-th
      letter code, and no other letter shares that code. */
  lemma KeymapLetters(k: PygameKeys, i: nat)
    requires |k.named| == |NAMED_CODES| && DistinctKeys(k) && i < 26
    ensures k.a + i in BuildKeymap(k) && BuildKeymap(k)[k.a + i] == LETTER_CODES[i]
    ensures forall j :: 0 <= j < 26 && j != i ==> LETTER_CODES[j] != LETTER_CODES[i]
  {
    KeymapAt(k, i);
    CodeOrderAt(i);
    assert KeyOrder(k)[i] == k.a + i;
    forall j | 0 <= j < 26 && j != i
      ensures LETTER_CODES[j] != LETTER_CODES[i]
    {
      LetterCodesDistinct(i, j);
    }
  }

  /** With distinct pygame constants, `K_0` maps to 11 and `K_0 + i` to
      `i + 1` for i in 1..9. */
  lemma KeymapDigits(k: PygameKeys, i: nat)
    requires |k.named| == |NAMED_CODES| && DistinctKeys(k) && i < 10
    ensures k.zero + i in BuildKeymap(k)
    ensures BuildKeymap(k)[k.zero + i] == if i == 0 then 11 else i + 1
  {
    KeymapAt(k, 26 + i);
    CodeOrderAt(26 + i);
    assert KeyOrder(k)[26 + i] == k.zero + i;
    DigitCodeAt(i);
  }

  lemma DigitCodeAt(i: nat)
    requires i < 10
    ensures DIGIT_CODES[i] == if i == 0 then 11 else i + 1
  {
  }

  /** With distinct pygame constants, the `j`-th named key maps to the `j`-th
      named code. */
  lemma KeymapNamed(k: PygameKeys, j: nat)
    requires |k.named| == |NAMED_CODES| && DistinctKeys(k) && j < |k.named|
    ensures k.named[j] in BuildKeymap(k) && BuildKeymap(k)[k.named[j]] == NAMED_CODES[j]
  {
    KeymapAt(k, 36 + j);
    CodeOrderAt(36 + j);
    assert KeyOrder(k)[36 + j] == k.named[j];
  }

  /** A pygame key outside the table is not mapped (and `get` yields 0). */
  lemma KeymapOnlyListedKeys(k: PygameKeys, key: int)
    requires |k.named| == |NAMED_CODES| && key !in KeyOrder(k)
    ensures key !in BuildKeymap(k)
  {
    InsertLookup(map[], KeyOrder(k), CODE_ORDER, key);
  }

  /** `keymap.get(key, 0)`. */
  function KeyCode(keymap: map<int, int>, key: int): (r: int)
    ensures key !in keymap ==> r == 0
    ensures r != 0 ==> key in keymap && keymap[key] == r
  {
    if key in keymap then keymap[key] else 0
  }

  /** With distinct pygame constants, the pump's `if evdev_code:` gate passes
      exactly for the keys the table lists. */
  lemma KeyCodeNonzeroIffListed(k: PygameKeys, key: int)
    requires |k.named| == |NAMED_CODES| && DistinctKeys(k)
    ensures KeyCode(BuildKeymap(k), key) != 0 <==> key in KeyOrder(k)
  {
    if key in KeyOrder(k) {
      var i :| 0 <= i < |KeyOrder(k)| && KeyOrder(k)[i] == key;
      KeymapAt(k, i);
      KeymapCodesNonzero(k, key);
    } else {
      KeymapOnlyListedKeys(k, key);
    }
  }

  // ---------------------------------------------------------------------
  // Event pump
  // ---------------------------------------------------------------------

  /** The pygame events the pump distinguishes. */
  datatype WindowEvent =
    | Quit
    | VideoResize
    | MouseMotion(x: int, y: int)
    | MouseButtonDown(button: int, x: int, y: int)
    | MouseButtonUp(button: int, x: int, y: int)
    | KeyDown(key: int)
    | KeyUp(key: int)
    | OtherEvent

  /** `running_event` and the left-button `touching` flag. */
  datatype Pump = Pump(running: bool, touching: bool)

  /** What the pump needs from its surroundings: whether a sender address is
      configured, the window size, the key table and the clock reading in
      milliseconds. */
  datatype Env = Env(senderConfigured: bool, winW: int, winH: int, keymap: map<int, int>, clockMs: nat)

  predicate ValidEnv(env: Env) {
    && env.winW > 0 && env.winH > 0
    && forall key :: key in env.keymap ==> -0x8000 <= env.keymap[key] < 0x8000
  }

  datatype Pumped = Pumped(state: Pump, packet: Option<seq<byte>>)

  /** The packet for a pointer event at window position (x, y), on slot 0. */
  function PointerPacket(env: Env, kind: byte, x: int, y: int): seq<byte>
    requires ValidEnv(env)
  {
    var p := MapMouseCoords(x, y, env.winW, env.winH);
    MakeEvent(kind, env.clockMs, p.0, p.1, 0, 0)
  }

  /** One iteration of the `for event in pygame.event.get()` body in
      `receive_and_decode`. */
  function PumpStep(s: Pump, ev: WindowEvent, env: Env): (r: Pumped)
    requires ValidEnv(env)
    ensures r.state.running == (s.running && !ev.Quit?)
    ensures r.state.touching != s.touching ==>
      env.senderConfigured && (ev.MouseButtonDown? || ev.MouseButtonUp?) && ev.button == 1
    ensures r.state.touching != s.touching ==> r.state.touching == ev.MouseButtonDown?
    ensures r.packet.Some? ==> |r.packet.value| == EVENT_SIZE
    ensures r.packet.Some? <==> (
      && env.senderConfigured
      && (|| (ev.MouseMotion? && s.touching)
          || ((ev.MouseButtonDown? || ev.MouseButtonUp?) && ev.button == 1)
          || ((ev.KeyDown? || ev.KeyUp?) && KeyCode(env.keymap, ev.key) != 0)))
    ensures env.senderConfigured && (ev.MouseButtonDown? || ev.MouseButtonUp?) && ev.button == 1 ==>
      r.state.touching == ev.MouseButtonDown?
  {
    // Every case after VIDEORESIZE sits behind `if sender_addr is None: continue`.
    var send := env.senderConfigured;
    match ev
    case Quit => Pumped(s.(running := false), None)
    case VideoResize => Pumped(s, None)
    case MouseMotion(x, y) =>
      Pumped(s, if send && s.touching then Some(PointerPacket(env, EVT_MOUSE_MOVE, x, y)) else None)
    case MouseButtonDown(b, x, y) =>
      if send && b == 1 then Pumped(s.(touching := true), Some(PointerPacket(env, EVT_MOUSE_DOWN, x, y)))
      else Pumped(s, None)
    case MouseButtonUp(b, x, y) =>
      if send && b == 1 then Pumped(s.(touching := false), Some(PointerPacket(env, EVT_MOUSE_UP, x, y)))
      else Pumped(s, None)
    case KeyDown(key) =>
      var code := KeyCode(env.keymap, key);
      Pumped(s, if send && code != 0 then Some(MakeEvent(EVT_KEY_DOWN, env.clockMs, code, 0, 0, 0)) else None)
    case KeyUp(key) =>
      var code := KeyCode(env.keymap, key);
      Pumped(s, if send && code != 0 then Some(MakeEvent(EVT_KEY_UP, env.clockMs, code, 0, 0, 0)) else None)
    case OtherEvent => Pumped(s, None)
  }

  /** What a sent packet decodes to: pointer records carry an in-frame
      position on slot 0, MOVE is sent only while the left button is held,
      and key records carry the nonzero mapped code. */
  lemma PumpPacketMeaning(s: Pump, ev: WindowEvent, env: Env)
    requires ValidEnv(env)
    requires PumpStep(s, ev, env).packet.Some?
    ensures var e := Unpack(PumpStep(s, ev, env).packet.value, 0);
      && e.timestamp == env.clockMs % 0x1_0000_0000
      && (e.kind == EVT_MOUSE_MOVE || e.kind == EVT_MOUSE_DOWN || e.kind == EVT_MOUSE_UP ||
          e.kind == EVT_KEY_DOWN || e.kind == EVT_KEY_UP)
      && (e.kind <= EVT_MOUSE_UP ==> 0 <= e.arg1 < STREAM_WIDTH && 0 <= e.arg2 < STREAM_HEIGHT && e.arg3 == 0)
      && (e.kind == EVT_MOUSE_MOVE ==> s.touching && ev.MouseMotion?)
      && (e.kind == EVT_MOUSE_DOWN ==> ev.MouseButtonDown? && ev.button == 1)
      && (e.kind == EVT_MOUSE_UP ==> ev.MouseButtonUp? && ev.button == 1)
      && (e.kind == EVT_KEY_DOWN ==> ev.KeyDown? && e.arg1 == KeyCode(env.keymap, ev.key) != 0)
      && (e.kind == EVT_KEY_UP ==> ev.KeyUp? && e.arg1 == KeyCode(env.keymap, ev.key) != 0)
  {
  }

  datatype PumpRun = PumpRun(state: Pump, packets: seq<seq<byte>>)

  /** The packets one step puts on the socket: none or one. */
  function Sent(step: Pumped): (r: seq<seq<byte>>)
    ensures |r| <= 1 && (r == [] <==> step.packet.None?)
  {
    if step.packet.Some? then [step.packet.value] else []
  }

  /** One `pygame.event.get()` batch: events are handled in order and a QUIT
      ends the batch, leaving later events unhandled. */
  function PumpBatch(s: Pump, evs: seq<WindowEvent>, env: Env): (r: PumpRun)
    requires ValidEnv(env)
    ensures !env.senderConfigured ==> r.packets == []
    ensures Quit in evs ==> !r.state.running
    ensures Quit !in evs ==> r.state.running == s.running
    decreases |evs|
  {
    if evs == [] then PumpRun(s, [])
    else
      var step := PumpStep(s, evs[0], env);
      if evs[0].Quit? then PumpRun(step.state, [])
      else
        var rest := PumpBatch(step.state, evs[1..], env);
        assert Quit in evs ==> Quit in evs[1..];
        PumpRun(rest.state, Sent(step) + rest.packets)
  }

  /** A batch of one event is that event's step: its state and its packet,
      if any. */
  lemma PumpBatchOne(s: Pump, ev: WindowEvent, env: Env)
    requires ValidEnv(env)
    ensures PumpBatch(s, [ev], env) == PumpRun(PumpStep(s, ev, env).state, Sent(PumpStep(s, ev, env)))
  {
    assert [ev][1..] == [];
  }

  /** Without a QUIT in `a`, handling `a + b` in one batch sends what `a` sends
      followed by what `b` sends from the state `a` leaves, and ends where
      `b` ends: the packets of a batch are its steps' packets in order. */
  lemma {:induction false} PumpBatchAppend(s: Pump, a: seq<WindowEvent>, b: seq<WindowEvent>, env: Env)
    requires ValidEnv(env) && Quit !in a
    ensures var ra := PumpBatch(s, a, env);
      var rb := PumpBatch(ra.state, b, env);
      PumpBatch(s, a + b, env) == PumpRun(rb.state, ra.packets + rb.packets)
    decreases |a|
  {
    if a == [] {
      assert a + b == b;
    } else {
      var ev, tail := a[0], a[1..];
      assert a == [ev] + tail && a + b == [ev] + (tail + b);
      assert !ev.Quit? && Quit !in tail by {
        assert ev in a;
      }
      var step := PumpStep(s, ev, env);
      var ra := PumpBatch(step.state, tail, env);
      PumpBatchCons(s, ev, tail, env);
      PumpBatchCons(s, ev, tail + b, env);
      PumpBatchAppend(step.state, tail, b, env);
      JoinRuns(PumpBatch(s, a, env), PumpBatch(s, a + b, env), Sent(step), ra, PumpBatch(ra.state, b, env));
    }
  }

  lemma JoinRuns(whole: PumpRun, joined: PumpRun, first: seq<seq<byte>>, ra: PumpRun, rb: PumpRun)
    requires whole == PumpRun(ra.state, first + ra.packets)
    requires joined == PumpRun(rb.state, first + (ra.packets + rb.packets))
    ensures joined == PumpRun(rb.state, whole.packets + rb.packets)
  {
    assert first + (ra.packets + rb.packets) == (first + ra.packets) + rb.packets;
  }

  /** A batch that does not start with QUIT sends the first step's packet and
      continues from that step's state. */
  lemma PumpBatchCons(s: Pump, ev: WindowEvent, rest: seq<WindowEvent>, env: Env)
    requires ValidEnv(env) && !ev.Quit?
    ensures var step := PumpStep(s, ev, env);
      var r := PumpBatch(step.state, rest, env);
      PumpBatch(s, [ev] + rest, env) == PumpRun(r.state, Sent(step) + r.packets)
  {
    assert ([ev] + rest)[0] == ev && ([ev] + rest)[1..] == rest;
  }

  /** Nothing after a QUIT in a batch is sent. */
  lemma {:induction false} QuitEndsBatch(s: Pump, before: seq<WindowEvent>, after: seq<WindowEvent>, env: Env)
    requires ValidEnv(env) && Quit !in before
    ensures PumpBatch(s, before + [Quit] + after, env).packets == PumpBatch(s, before, env).packets
    decreases |before|
  {
    if before == [] {
      assert before + [Quit] + after == [Quit] + after;
    } else {
      assert (before + [Quit] + after)[1..] == before[1..] + [Quit] + after;
      QuitEndsBatch(PumpStep(s, before[0], env).state, before[1..], after, env);
    }
  }

  /** The real key table satisfies the pump's requirement on codes. */
  lemma BuiltKeymapValid(k: PygameKeys, senderConfigured: bool, winW: int, winH: int, clockMs: nat)
    requires |k.named| == |NAMED_CODES| && winW > 0 && winH > 0
    ensures ValidEnv(Env(senderConfigured, winW, winH, BuildKeymap(k), clockMs))
  {
    forall key | key in BuildKeymap(k)
      ensures -0x8000 <= BuildKeymap(k)[key] < 0x8000
    {
      KeymapCodesNonzero(k, key);
    }
  }
}

=== FILE: slot_allocator.dfy ===
/**
  The browser's touch-slot allocator: each live `Touch.identifier` is mapped
  to the lowest unused slot in [0, 9], and the slot is released when the
  touch ends. `slotUsed` is the JavaScript array `new Array(MAX_SLOTS)`, so it
  always has ten entries.
*/
module SlotAllocator {
  import opened Wrappers

  const MAX_SLOTS: nat := 10

  datatype Alloc = Alloc(idToSlot: map<int, int>, slotUsed: seq<bool>)

  /** The page as loaded: no touch mapped, every slot free. */
  const Empty: Alloc := Alloc(map[], seq(MAX_SLOTS, _ => false))

  /** A slot is marked used exactly when some identifier maps to it, every
      mapped slot is in range, and no two identifiers share a slot. */
  predicate Wf(a: Alloc) {
    && |a.slotUsed| == MAX_SLOTS
    && (forall id :: id in a.idToSlot ==> 0 <= a.idToSlot[id] < MAX_SLOTS && a.slotUsed[a.idToSlot[id]])
    && (forall i :: 0 <= i < MAX_SLOTS && a.slotUsed[i] ==> exists id :: id in a.idToSlot && a.idToSlot[id] == i)
    && (forall id1, id2 :: id1 in a.idToSlot && id2 in a.idToSlot && a.idToSlot[id1] == a.idToSlot[id2] ==> id1 == id2)
  }

  lemma EmptyWf()
    ensures Wf(Empty)
  {
  }

  /** The `for(let i=0;i<MAX_SLOTS;i++) if(!slotUsed[i])` scan from `from`:
      the lowest free index at or after `from`, or -1 when there is none. */
  function FirstFree(used: seq<bool>, from: nat): (r: int)
    requires from <= |used|
    ensures r == -1 || (from <= r < |used| && !used[r])
    ensures r == -1 ==> forall i :: from <= i < |used| ==> used[i]
    ensures r != -1 ==> forall i :: from <= i < r ==> used[i]
    decreases |used| - from
  {
    if from == |used| then -1
    else if !used[from] then from
    else FirstFree(used, from + 1)
  }

  datatype Allocated = Allocated(state: Alloc, slot: int)

  /** `allocSlot(id)`. A mapped identifier gets its slot back and nothing
      changes; otherwise it takes the lowest free slot, or -1 with nothing
      changed when all ten are used. */
  function AllocSlot(a: Alloc, id: int): (r: Allocated)
    requires |a.slotUsed| == MAX_SLOTS
    ensures id in a.idToSlot ==> r == Allocated(a, a.idToSlot[id])
    ensures id !in a.idToSlot && r.slot == -1 ==>
      r.state == a && forall i :: 0 <= i < MAX_SLOTS ==> a.slotUsed[i]
    ensures id !in a.idToSlot && r.slot != -1 ==>
      && 0 <= r.slot < MAX_SLOTS && !a.slotUsed[r.slot]
      && (forall i :: 0 <= i < r.slot ==> a.slotUsed[i])
      && r.state.idToSlot == a.idToSlot[id := r.slot]
      && r.state.slotUsed == a.slotUsed[r.slot := true]
  {
    if id in a.idToSlot then Allocated(a, a.idToSlot[id])
    else
      var i := FirstFree(a.slotUsed, 0);
      if i == -1 then Allocated(a, -1)
      else Allocated(Alloc(a.idToSlot[id := i], a.slotUsed[i := true]), i)
  }

  /** `freeSlot(id)`: an unmapped identifier changes nothing; a mapped one
      loses its mapping and its slot is marked free. */
  function FreeSlot(a: Alloc, id: int): (r: Alloc)
    requires |a.slotUsed| == MAX_SLOTS
    ensures |r.slotUsed| == MAX_SLOTS
    ensures id !in a.idToSlot ==> r == a
    ensures id in a.idToSlot && 0 <= a.idToSlot[id] < MAX_SLOTS ==>
      && r.idToSlot == a.idToSlot - {id}
      && !r.slotUsed[a.idToSlot[id]]
      && forall i :: 0 <= i < MAX_SLOTS && i != a.idToSlot[id] ==> r.slotUsed[i] == a.slotUsed[i]
  {
    if id !in a.idToSlot then a
    else
      var s := a.idToSlot[id];
      var used := if 0 <= s < MAX_SLOTS then a.slotUsed[s := false] else a.slotUsed;
      Alloc(a.idToSlot - {id}, used)
  }

  // ---------------------------------------------------------------------
  // Invariant and round trip
  // ---------------------------------------------------------------------

  /** Allocation keeps the allocator well formed, and a returned slot is in
      range and held by `id` alone. */
  lemma AllocKeepsWf(a: Alloc, id: int)
    requires Wf(a)
    ensures Wf(AllocSlot(a, id).state)
    ensures var r := AllocSlot(a, id);
      r.slot != -1 ==> 0 <= r.slot < MAX_SLOTS && id in r.state.idToSlot && r.state.idToSlot[id] == r.slot
  {
    var r := AllocSlot(a, id);
    if id !in a.idToSlot && r.slot != -1 {
      TakeKeepsWf(a, id, r.slot);
    }
  }

  /** Mapping a fresh identifier to a free slot keeps the allocator well
      formed. */
  lemma TakeKeepsWf(a: Alloc, id: int, slot: int)
    requires Wf(a) && id !in a.idToSlot && 0 <= slot < MAX_SLOTS && !a.slotUsed[slot]
    ensures Wf(Alloc(a.idToSlot[id := slot], a.slotUsed[slot := true]))
  {
    var b := Alloc(a.idToSlot[id := slot], a.slotUsed[slot := true]);
    forall i | 0 <= i < MAX_SLOTS && b.slotUsed[i]
      ensures exists k :: k in b.idToSlot && b.idToSlot[k] == i
    {
      if i == slot {
        assert b.idToSlot[id] == i;
      } else {
        var k :| k in a.idToSlot && a.idToSlot[k] == i;
        assert b.idToSlot[k] == i;
      }
    }
    assert forall k :: k in a.idToSlot ==> a.idToSlot[k] != slot;
  }

  /** Freeing keeps the allocator well formed. */
  lemma FreeKeepsWf(a: Alloc, id: int)
    requires Wf(a)
    ensures Wf(FreeSlot(a, id))
  {
    if id in a.idToSlot {
      var s := a.idToSlot[id];
      var b := FreeSlot(a, id);
      forall i | 0 <= i < MAX_SLOTS && b.slotUsed[i]
        ensures exists k :: k in b.idToSlot && b.idToSlot[k] == i
      {
        var k :| k in a.idToSlot && a.idToSlot[k] == i;
        assert k != id;
        assert b.idToSlot[k] == i;
      }
      forall k | k in b.idToSlot
        ensures 0 <= b.idToSlot[k] < MAX_SLOTS && b.slotUsed[b.idToSlot[k]]
      {
        assert a.idToSlot[k] != s;
      }
    }
  }

  /** A touch that starts and ends with nothing in between leaves the
      allocator exactly as it found it. */
  lemma AllocThenFree(a: Alloc, id: int)
    requires Wf(a) && id !in a.idToSlot
    ensures FreeSlot(AllocSlot(a, id).state, id) == a
  {
    var r := AllocSlot(a, id);
    if r.slot != -1 {
      var b := FreeSlot(r.state, id);
      assert b.idToSlot == a.idToSlot;
      assert b.slotUsed == a.slotUsed;
    }
  }

  /** The first touch on an idle page gets slot 0. */
  lemma FirstTouchGetsSlotZero(id: int)
    ensures AllocSlot(Empty, id).slot == 0
  {
  }

  // ---------------------------------------------------------------------
  // Touch handlers
  // ---------------------------------------------------------------------

  /** `touchstart` for one changed touch: the slot a DOWN is sent on, if one
      could be allocated. */
  function TouchStart(a: Alloc, id: int): (r: (Alloc, Option<int>))
    requires |a.slotUsed| == MAX_SLOTS
    ensures r.1.Some? <==> AllocSlot(a, id).slot >= 0
    ensures r.1.Some? ==> r.1.value == AllocSlot(a, id).slot
    ensures r.0 == AllocSlot(a, id).state
  {
    var res := AllocSlot(a, id);
    if res.slot < 0 then (res.state, None) else (res.state, Some(res.slot))
  }

  /** `touchend`/`touchcancel` for one changed touch: the slot an UP is sent
      on, if the touch was mapped, after which the slot is freed. */
  function TouchEnd(a: Alloc, id: int): (r: (Alloc, Option<int>))
    requires |a.slotUsed| == MAX_SLOTS
    ensures r.1.Some? <==> id in a.idToSlot
    ensures r.1.Some? ==> r.1.value == a.idToSlot[id]
    ensures r.0 == FreeSlot(a, id)
  {
    (FreeSlot(a, id), if id in a.idToSlot then Some(a.idToSlot[id]) else None)
  }

  /** Two touches that are live together are sent on different slots, both
      in [0, 9], and each touch's UP carries the slot of its DOWN. */
  lemma ConcurrentTouchesDistinctSlots(a: Alloc, id1: int, id2: int)
    requires Wf(a) && id1 != id2
    requires TouchStart(a, id1).1.Some?
    requires TouchStart(TouchStart(a, id1).0, id2).1.Some?
    ensures var s1 := TouchStart(a, id1);
      var s2 := TouchStart(s1.0, id2);
      && s1.1.value != s2.1.value
      && 0 <= s1.1.value < MAX_SLOTS && 0 <= s2.1.value < MAX_SLOTS
      && TouchEnd(s2.0, id1).1 == s1.1
      && TouchEnd(TouchEnd(s2.0, id1).0, id2).1 == s2.1
  {
    var s1 := TouchStart(a, id1);
    AllocKeepsWf(a, id1);
    AllocKeepsWf(s1.0, id2);
    var b := s1.0;
    var c := TouchStart(b, id2).0;
    assert id1 in c.idToSlot && c.idToSlot[id1] == s1.1.value;
    assert id2 in c.idToSlot && c.idToSlot[id2] == TouchStart(b, id2).1.value;
    FreeKeepsWf(c, id1);
  }

  /** `ws.onclose`: every mapping is dropped and every slot freed at once,
      without an UP for the touches that were live. */
  function Disconnect(a: Alloc): (r: Alloc)
    requires |a.slotUsed| == MAX_SLOTS
    ensures Wf(r) && r.idToSlot == map[]
    ensures forall i :: 0 <= i < MAX_SLOTS ==> !r.slotUsed[i]
  {
    Alloc(map[], seq(|a.slotUsed|, _ => false))
  }

  /** A touch live at a disconnect never gets its UP: after the reset its
      `touchend` finds no slot. */
  lemma DisconnectDropsUp(a: Alloc, id: int)
    requires |a.slotUsed| == MAX_SLOTS
    ensures TouchEnd(Disconnect(a), id).1 == None
    ensures TouchEnd(Disconnect(a), id).0 == Disconnect(a)
  {
  }
}

=== FILE: transport.dfy ===
/**
  The three ways records reach an injector: UDP datagrams read by the input
  server (`recvfrom(256)` then a greedy decode loop), WebRTC data-channel
  messages decoded by the same loop without truncation, and WebSocket binary
  frames that the browser relay forwards as UDP datagrams.
*/
module Transport {
  import opened Wrappers
  import opened Wire
  import opened Injector

  // Record offsets are written `13 * i` rather than `EVENT_SIZE * i`: the
  // literal keeps the arithmetic linear for the solver.

  /** The `recvfrom` buffer size: a longer datagram is cut to this many bytes. */
  const RECV_BUFSIZE: nat := 256

  // ---------------------------------------------------------------------
  // Greedy decode
  // ---------------------------------------------------------------------

  /** The records a buffer holds: one per complete 13 bytes from offset 0, in
      order; trailing bytes that do not fill a record are dropped. */
  function Records(data: seq<byte>): (r: seq<Event>)
    ensures 13 * |r| <= |data| < 13 * |r| + EVENT_SIZE
    decreases |data|
  {
    if |data| < EVENT_SIZE then [] else [Unpack(data, 0)] + Records(data[EVENT_SIZE..])
  }

  /** Record `i` is the one at byte offset `13 * i`. */
  lemma {:induction false} RecordAt(data: seq<byte>, i: nat)
    requires i < |Records(data)|
    ensures 13 * i + EVENT_SIZE <= |data|
    ensures Records(data)[i] == Unpack(data, 13 * i)
    decreases i
  {
    if i > 0 {
      RecordsTail(data, i);
      RecordAt(data[EVENT_SIZE..], i - 1);
      UnpackTail(data, 13 * (i - 1));
    }
  }

  lemma RecordsTail(data: seq<byte>, i: nat)
    requires 0 < i < |Records(data)|
    ensures i - 1 < |Records(data[EVENT_SIZE..])|
    ensures Records(data)[i] == Records(data[EVENT_SIZE..])[i - 1]
  {
  }

  /** There are `len div 13` records. */
  lemma RecordCount(data: seq<byte>)
    ensures |Records(data)| == |data| / EVENT_SIZE
  {
  }

  lemma UnpackTail(data: seq<byte>, o: nat)
    requires o + 26 <= |data|
    ensures Unpack(data[EVENT_SIZE..], o) == Unpack(data, o + EVENT_SIZE)
  {
    var tail := data[EVENT_SIZE..];
    assert tail[o..o + EVENT_SIZE] == data[o + EVENT_SIZE..o + 26];
    UnpackLocal(tail, o, data, o + EVENT_SIZE);
  }

  /** The `while offset + EVENT_SIZE <= len(data)` loop shared by the input
      server and the data-channel handler; a buffer shorter than one record
      yields nothing. */
  method DecodeAll(data: seq<byte>) returns (evs: seq<Event>)
    ensures evs == Records(data)
    ensures |data| < EVENT_SIZE ==> evs == []
  {
    evs := [];
    if |data| < EVENT_SIZE {
      return;
    }
    var offset := 0;
    while offset + EVENT_SIZE <= |data|
      invariant offset == 13 * |evs| && offset <= |data|
      invariant forall i :: 0 <= i < |evs| ==> evs[i] == Unpack(data, 13 * i)
      decreases |data| - offset
    {
      evs := evs + [Unpack(data, offset)];
      offset := offset + EVENT_SIZE;
    }
    forall i | 0 <= i < |evs|
      ensures evs[i] == Records(data)[i]
    {
      RecordAt(data, i);
    }
  }

  /** Concatenated encodings. */
  function EncodeAll(evs: seq<Event>): (r: seq<byte>)
    ensures |r| == 13 * |evs|
  {
    if evs == [] then [] else Pack(evs[0]) + EncodeAll(evs[1..])
  }

  /** A record depends only on its own 13 bytes. */
  lemma UnpackLocal(a: seq<byte>, oa: nat, b: seq<byte>, ob: nat)
    requires oa + EVENT_SIZE <= |a| && ob + EVENT_SIZE <= |b|
    requires a[oa..oa + EVENT_SIZE] == b[ob..ob + EVENT_SIZE]
    ensures Unpack(a, oa) == Unpack(b, ob)
  {
    var r := a[oa..oa + EVENT_SIZE];
    assert Unpack(a, oa) == Unpack(r, 0);
    assert Unpack(b, ob) == Unpack(r, 0);
  }

  lemma RecordsCons(data: seq<byte>)
    requires |data| >= EVENT_SIZE
    ensures Records(data) == [Unpack(data, 0)] + Records(data[EVENT_SIZE..])
  {
  }

  /** Round trip for a batch: the records decoded from a run of encoded events
      followed by fewer than 13 stray bytes are exactly those events. */
  lemma {:induction false} RecordsOfEncoded(evs: seq<Event>, tail: seq<byte>)
    requires |tail| < EVENT_SIZE
    ensures Records(EncodeAll(evs) + tail) == evs
    decreases |evs|
  {
    var data := EncodeAll(evs) + tail;
    if evs == [] {
      assert data == tail;
    } else {
      var head := Pack(evs[0]);
      var more := EncodeAll(evs[1..]) + tail;
      assert data == head + more;
      assert data[EVENT_SIZE..] == more;
      RecordsCons(data);
      RecordsOfEncoded(evs[1..], tail);
      UnpackLocal(data, 0, head, 0);
      assert [evs[0]] + evs[1..] == evs;
    }
  }

  // ---------------------------------------------------------------------
  // UDP input server
  // ---------------------------------------------------------------------

  /** `recvfrom(256)` on a UDP socket: the excess of a longer datagram is
      discarded. */
  function Receive(datagram: seq<byte>): (r: seq<byte>)
    ensures |r| <= RECV_BUFSIZE
    ensures r <= datagram
    ensures |datagram| <= RECV_BUFSIZE ==> r == datagram
    ensures |datagram| > RECV_BUFSIZE ==> r == datagram[..RECV_BUFSIZE]
  {
    if |datagram| <= RECV_BUFSIZE then datagram else datagram[..RECV_BUFSIZE]
  }

  /** One iteration of the input server's receive loop: the records of the
      received bytes are handed to `handle_event` in order. */
  function ServeDatagram(active: set<int>, datagram: seq<byte>): (r: Step)
    ensures |Receive(datagram)| < EVENT_SIZE ==> r == Step(active, [])
  {
    ApplyAll(active, Records(Receive(datagram)))
  }

  /** A datagram carries at most 19 records that reach the injector. */
  lemma DatagramRecordBound(datagram: seq<byte>)
    ensures |Records(Receive(datagram))| <= RECV_BUFSIZE / EVENT_SIZE
    ensures RECV_BUFSIZE / EVENT_SIZE == 19
  {
  }

  // ---------------------------------------------------------------------
  // WebRTC data channel
  // ---------------------------------------------------------------------

  /** The streamer's injector: absent when the device could not be created. */
  datatype Served = Served(injector: Option<set<int>>, prims: seq<Prim>)

  /** `_on_data_channel_message`: a missing payload or one shorter than a
      record is ignored; otherwise every record is decoded, and applied only
      when an injector exists. The message is not truncated. */
  function OnDataChannelMessage(injector: Option<set<int>>, data: Option<seq<byte>>): (r: Served)
    ensures data.None? || |data.value| < EVENT_SIZE || injector.None? ==> r == Served(injector, [])
    ensures r.injector.Some? <==> injector.Some?
  {
    match (injector, data)
    case (Some(active), Some(raw)) =>
      if |raw| < EVENT_SIZE then Served(injector, [])
      else
        var step := ApplyAll(active, Records(raw));
        Served(Some(step.active), step.prims)
    case _ => Served(injector, [])
  }

  /** The two injectors agree on every payload that fits the UDP buffer. */
  lemma AdaptersAgree(active: set<int>, payload: seq<byte>)
    requires |payload| <= RECV_BUFSIZE
    ensures var step := ServeDatagram(active, payload);
      OnDataChannelMessage(Some(active), Some(payload)) == Served(Some(step.active), step.prims)
  {
  }

  /** The input server decodes a prefix of what the data channel decodes from
      the same payload. */
  lemma ReceiveKeepsPrefix(data: seq<byte>)
    ensures |Records(Receive(data))| <= |Records(data)|
    ensures Records(Receive(data)) == Records(data)[..|Records(Receive(data))|]
  {
    if |data| > RECV_BUFSIZE {
      var r := Records(data[..RECV_BUFSIZE]);
      forall i | 0 <= i < |r|
        ensures i < |Records(data)| && r[i] == Records(data)[i]
      {
        RecordsPrefixAt(data, RECV_BUFSIZE, i);
      }
    }
  }

  /** Cutting a buffer keeps every record that lies before the cut. */
  lemma RecordsPrefixAt(data: seq<byte>, k: nat, i: nat)
    requires k <= |data| && i < |Records(data[..k])|
    ensures i < |Records(data)|
    ensures Records(data[..k])[i] == Records(data)[i]
  {
    var cut := data[..k];
    var o := 13 * i;
    RecordAt(cut, i);
    RecordAt(data, i);
    assert cut[o..o + EVENT_SIZE] == data[o..o + EVENT_SIZE];
    UnpackLocal(cut, o, data, o);
  }

  /** Beyond 256 bytes the adapters differ: 20 encoded events sent as one
      payload are all applied by the data-channel injector, while the input
      server applies only the first 19. */
  lemma AdaptersDifferBeyondBuffer(active: set<int>, evs: seq<Event>)
    requires |evs| == 20
    ensures var whole := ApplyAll(active, evs);
      OnDataChannelMessage(Some(active), Some(EncodeAll(evs))) == Served(Some(whole.active), whole.prims)
    ensures ServeDatagram(active, EncodeAll(evs)) == ApplyAll(active, evs[..19])
  {
    var data := EncodeAll(evs);
    assert Records(data) == evs by {
      RecordsOfEncoded(evs, []);
      assert data + [] == data;
    }
    assert Records(Receive(data)) == evs[..19] by {
      ReceiveKeepsPrefix(data);
    }
  }

  // ---------------------------------------------------------------------
  // WebSocket relay (browser receiver)
  // ---------------------------------------------------------------------

  /** A WebSocket message: text frames arrive as `str`, binary as `bytes`. */
  datatype WsMessage = Text(text: string) | Binary(payload: seq<byte>)

  /** A UDP peer address `(host, port)`. */
  datatype Address = Address(host: string, port: int)

  datatype Datagram = Datagram(to: Address, payload: seq<byte>)

  /** The `ws_handler` filter: a message is forwarded to the configured sender
      iff it is binary, a sender address is known and it holds at least one
      record; it is forwarded unchanged. */
  function RelayFrame(msg: WsMessage, sender: Option<Address>): (r: Option<Datagram>)
    ensures r.Some? <==> msg.Binary? && sender.Some? && |msg.payload| >= EVENT_SIZE
    ensures r.Some? ==> r.value == Datagram(sender.value, msg.payload)
  {
    match msg
    case Text(_) => None
    case Binary(b) =>
      match sender
      case Some(addr) => if |b| >= EVENT_SIZE then Some(Datagram(addr, b)) else None
      case None => None
  }

  /** Every relayed frame gets past the input server's length check: it
      yields between 1 and 19 records, the first `min(len, 256) / 13` of the
      frame. */
  lemma RelayedFrameDecodes(msg: WsMessage, sender: Option<Address>)
    requires RelayFrame(msg, sender).Some?
    ensures var d := RelayFrame(msg, sender).value.payload;
      && 1 <= |Records(Receive(d))| <= 19
      && |Records(Receive(d))| == (if |d| <= RECV_BUFSIZE then |d| else RECV_BUFSIZE) / EVENT_SIZE
  {
  }
}

=== FILE: wire.dfy ===
/**
  The 13-byte input event record shared by every sender and receiver of the
  back-channel: struct format `"<BIhhhh"` — a u8 kind, a little-endian u32
  millisecond timestamp and four little-endian i16 arguments, with no padding.

  `Pack`/`Unpack` are Python's `struct.pack`/`struct.unpack_from`,
  `MakeEvent` is the desktop receiver's encoder and `MkEvt` the browser's
  DataView encoder.
*/
module Wire {
  import opened Wrappers

  type byte = x: int | 0 <= x < 0x100
  type u32 = x: int | 0 <= x < 0x1_0000_0000
  type i16 = x: int | -0x8000 <= x < 0x8000

  /** `struct.calcsize("<BIhhhh")`: 1 + 4 + 4 * 2 bytes, `<` forbids padding. */
  const EVENT_SIZE: nat := 1 + 4 + 4 * 2

  /** The stream's frame size: every sender maps pointer positions into it. */
  const STREAM_WIDTH: int := 1280
  const STREAM_HEIGHT: int := 720

  const EVT_MOUSE_MOVE: byte := 0
  const EVT_MOUSE_DOWN: byte := 1
  const EVT_MOUSE_UP: byte := 2
  const EVT_KEY_DOWN: byte := 3
  const EVT_KEY_UP: byte := 4

  /** One decoded record. The meaning of the arguments depends on `kind`:
      pointer kinds carry x, y and a touch slot in arg1..arg3, key kinds an
      evdev key code in arg1. */
  datatype Event = Event(kind: byte, timestamp: u32, arg1: i16, arg2: i16, arg3: i16, arg4: i16)

  // ---------------------------------------------------------------------
  // Field codecs
  // ---------------------------------------------------------------------

  /** Little-endian unsigned 32-bit read at offset `o`. */
  function U32At(b: seq<byte>, o: nat): u32
    requires o + 4 <= |b|
  {
    b[o] as int + 0x100 * (b[o + 1] as int) + 0x1_0000 * (b[o + 2] as int) + 0x100_0000 * (b[o + 3] as int)
  }

  /** Little-endian two's-complement 16-bit read at offset `o`. */
  function I16At(b: seq<byte>, o: nat): i16
    requires o + 2 <= |b|
  {
    var u := b[o] as int + 0x100 * (b[o + 1] as int);
    if u >= 0x8000 then u - 0x1_0000 else u
  }

  function U32Bytes(v: u32): (r: seq<byte>)
    ensures |r| == 4 && U32At(r, 0) == v
  {
    var v1 := v / 0x100;
    var v2 := v1 / 0x100;
    LowByte(v);
    LowByte(v1);
    LowByte(v2);
    [v % 0x100, v1 % 0x100, v2 % 0x100, v2 / 0x100]
  }

  lemma LowByte(n: nat)
    ensures n == n % 0x100 + 0x100 * (n / 0x100) && 0 <= n % 0x100 < 0x100
  {
  }

  function I16Bytes(v: i16): (r: seq<byte>)
    ensures |r| == 2 && I16At(r, 0) == v
  {
    var u := if v < 0 then v + 0x1_0000 else v;
    [u % 0x100, u / 0x100]
  }

  /** Reading back the bytes of a u32 field gives the same bytes. */
  lemma U32BytesOfRead(b: seq<byte>, o: nat)
    requires o + 4 <= |b|
    ensures U32Bytes(U32At(b, o)) == b[o..o + 4]
  {
    var q2 := b[o + 2] as int + 0x100 * (b[o + 3] as int);
    var q1 := b[o + 1] as int + 0x100 * q2;
    assert U32At(b, o) == b[o] + 0x100 * q1;
    ByteDigit(b[o], q1);
    ByteDigit(b[o + 1], q2);
    ByteDigit(b[o + 2], b[o + 3]);
    assert U32At(b, o) / 0x1_0000 == q2 by {
      assert U32At(b, o) / 0x1_0000 == (U32At(b, o) / 0x100) / 0x100;
    }
    assert U32At(b, o) / 0x100_0000 == b[o + 3] by {
      assert U32At(b, o) / 0x100_0000 == (U32At(b, o) / 0x1_0000) / 0x100;
    }
  }

  /** Splitting off the low byte of `r + 256 * q`. */
  lemma ByteDigit(r: byte, q: nat)
    ensures (r + 0x100 * q) % 0x100 == r
    ensures (r + 0x100 * q) / 0x100 == q
  {
  }

  lemma I16BytesOfRead(b: seq<byte>, o: nat)
    requires o + 2 <= |b|
    ensures I16Bytes(I16At(b, o)) == b[o..o + 2]
  {
  }

  // ---------------------------------------------------------------------
  // Records
  // ---------------------------------------------------------------------

  /** `struct.unpack_from(EVENT_FMT, b, o)`. */
  function Unpack(b: seq<byte>, o: nat): (r: Event)
    requires o + EVENT_SIZE <= |b|
    ensures r.kind == b[o]
    ensures r.timestamp == U32At(b, o + 1)
    ensures r.arg1 == I16At(b, o + 5) && r.arg2 == I16At(b, o + 7)
    ensures r.arg3 == I16At(b, o + 9) && r.arg4 == I16At(b, o + 11)
    ensures r.timestamp % 0x100 == b[o + 1] && r.timestamp / 0x100_0000 == b[o + 4]
    ensures r.arg1 % 0x100 == b[o + 5] && (r.arg1 < 0 <==> b[o + 6] >= 0x80)
    ensures r.arg2 % 0x100 == b[o + 7] && (r.arg2 < 0 <==> b[o + 8] >= 0x80)
    ensures r.arg3 % 0x100 == b[o + 9] && (r.arg3 < 0 <==> b[o + 10] >= 0x80)
    ensures r.arg4 % 0x100 == b[o + 11] && (r.arg4 < 0 <==> b[o + 12] >= 0x80)
  {
    U32Ends(b, o + 1);
    I16Ends(b, o + 5);
    I16Ends(b, o + 7);
    I16Ends(b, o + 9);
    I16Ends(b, o + 11);
    Event(b[o], U32At(b, o + 1), I16At(b, o + 5), I16At(b, o + 7), I16At(b, o + 9), I16At(b, o + 11))
  }

  /** Little-endian: the first byte is the least significant, the last the
      most. */
  lemma U32Ends(b: seq<byte>, o: nat)
    requires o + 4 <= |b|
    ensures U32At(b, o) % 0x100 == b[o] && U32At(b, o) / 0x100_0000 == b[o + 3]
  {
    var q := b[o + 1] as int + 0x100 * (b[o + 2] as int) + 0x1_0000 * (b[o + 3] as int);
    var low := b[o] as int + 0x100 * (b[o + 1] as int) + 0x1_0000 * (b[o + 2] as int);
    ByteDigit(b[o], q);
    assert U32At(b, o) == low + 0x100_0000 * (b[o + 3] as int);
  }

  /** Two's complement: the low byte comes first, and the sign is the top bit
      of the high byte. */
  lemma I16Ends(b: seq<byte>, o: nat)
    requires o + 2 <= |b|
    ensures I16At(b, o) % 0x100 == b[o]
    ensures I16At(b, o) < 0 <==> b[o + 1] >= 0x80
  {
    var hi := if b[o + 1] >= 0x80 then b[o + 1] as int - 0x100 else b[o + 1] as int;
    assert I16At(b, o) == b[o] + 0x100 * hi;
  }

  /** `struct.pack(EVENT_FMT, ...)`: decoding the record gives the event back. */
  function Pack(e: Event): (r: seq<byte>)
    ensures |r| == EVENT_SIZE
    ensures Unpack(r, 0) == e
  {
    var r := [e.kind] + U32Bytes(e.timestamp) + I16Bytes(e.arg1) + I16Bytes(e.arg2)
      + I16Bytes(e.arg3) + I16Bytes(e.arg4);
    assert r[1..5] == U32Bytes(e.timestamp);
    assert r[5..7] == I16Bytes(e.arg1);
    assert r[7..9] == I16Bytes(e.arg2);
    assert r[9..11] == I16Bytes(e.arg3);
    assert r[11..13] == I16Bytes(e.arg4);
    r
  }

  /** The other round trip: every 13 bytes are the encoding of the event they
      decode to, so the format has no redundant or invalid records. */
  lemma PackUnpack(b: seq<byte>)
    requires |b| == EVENT_SIZE
    ensures Pack(Unpack(b, 0)) == b
  {
    U32BytesOfRead(b, 1);
    I16BytesOfRead(b, 5);
    I16BytesOfRead(b, 7);
    I16BytesOfRead(b, 9);
    I16BytesOfRead(b, 11);
    assert b == [b[0]] + b[1..5] + b[5..7] + b[7..9] + b[9..11] + b[11..13];
  }

  /** Two events encode to the same record only if they are equal. */
  lemma PackInjective(e1: Event, e2: Event)
    requires Pack(e1) == Pack(e2)
    ensures e1 == e2
  {
    assert Unpack(Pack(e1), 0) == Unpack(Pack(e2), 0);
  }

  // ---------------------------------------------------------------------
  // Desktop receiver encoder (pygame client)
  // ---------------------------------------------------------------------

  /** `& 0xFFFFFFFF` applied to a non-negative millisecond count. */
  function Mask32(v: nat): u32 {
    v % 0x1_0000_0000
  }

  /** `make_event`: the clock reading `clockMs` (`int(time.monotonic() * 1000)`)
      is a parameter. The record is 13 bytes and decodes to the given kind and
      arguments with the timestamp reduced modulo 2^32. */
  function MakeEvent(kind: byte, clockMs: nat, arg1: i16, arg2: i16, arg3: i16, arg4: i16): (r: seq<byte>)
    ensures |r| == EVENT_SIZE
    ensures Unpack(r, 0) == Event(kind, clockMs % 0x1_0000_0000, arg1, arg2, arg3, arg4)
  {
    Pack(Event(kind, Mask32(clockMs), arg1, arg2, arg3, arg4))
  }

  // ---------------------------------------------------------------------
  // Browser encoder (JavaScript DataView)
  // ---------------------------------------------------------------------

  /** ECMAScript ToUint8, applied by `DataView.setUint8`. */
  function ToUint8(v: int): (r: byte)
    ensures (r - v) % 0x100 == 0
  {
    v % 0x100
  }

  /** ECMAScript ToUint32, applied by `DataView.setUint32`. */
  function ToUint32(v: int): (r: u32)
    ensures (r - v) % 0x1_0000_0000 == 0
  {
    v % 0x1_0000_0000
  }

  /** ECMAScript ToInt16, applied by `DataView.setInt16`. */
  function ToInt16(v: int): (r: i16)
    ensures (r - v) % 0x1_0000 == 0
    ensures -0x8000 <= v < 0x8000 ==> r == v
  {
    var m := v % 0x1_0000;
    if m >= 0x8000 then m - 0x1_0000 else m
  }

  /** `mkEvt(type, x, y, slot)`: `nowMs` is `performance.now()` already
      truncated by `|0`; the `& 0xFFFFFFFF` that follows leaves a signed 32-bit
      value which `setUint32` reduces modulo 2^32. An absent slot is written
      as 0 (`slot||0`) and byte 11..12 always hold 0. */
  function MkEvt(kind: int, nowMs: int, x: int, y: int, slot: Option<int>): (r: seq<byte>)
    ensures |r| == EVENT_SIZE
    ensures r[0] == kind % 0x100
    ensures U32At(r, 1) == nowMs % 0x1_0000_0000
    ensures I16At(r, 5) == ToInt16(x) && I16At(r, 7) == ToInt16(y)
    ensures I16At(r, 9) == ToInt16(slot.GetOr(0)) && I16At(r, 11) == 0
  {
    var r := [ToUint8(kind)] + U32Bytes(ToUint32(nowMs)) + I16Bytes(ToInt16(x))
      + I16Bytes(ToInt16(y)) + I16Bytes(ToInt16(slot.GetOr(0))) + I16Bytes(0);
    assert r[1..5] == U32Bytes(ToUint32(nowMs));
    assert r[5..7] == I16Bytes(ToInt16(x));
    assert r[7..9] == I16Bytes(ToInt16(y));
    assert r[9..11] == I16Bytes(ToInt16(slot.GetOr(0)));
    assert r[11..13] == I16Bytes(0);
    r
  }

  /** For in-range values the browser's record decodes to exactly what it was
      given, and it is byte-identical to the desktop receiver's record. */
  lemma MkEvtAgreesWithMakeEvent(kind: byte, nowMs: nat, x: i16, y: i16, slot: i16)
    ensures Unpack(MkEvt(kind, nowMs, x, y, Some(slot)), 0) == Event(kind, nowMs % 0x1_0000_0000, x, y, slot, 0)
    ensures MkEvt(kind, nowMs, x, y, Some(slot)) == MakeEvent(kind, nowMs, x, y, slot, 0)
  {
    var r := MkEvt(kind, nowMs, x, y, Some(slot));
    assert Unpack(r, 0) == Event(kind, nowMs % 0x1_0000_0000, x, y, slot, 0);
    PackUnpack(r);
  }
}

=== FILE: wrappers.dfy ===
/** Failure-compatible optional values shared by the other modules. */
module Wrappers {

  /** A value that may be absent: Python's `None`, JavaScript's `undefined`. */
  datatype Option<+T> = None | Some(value: T) {

    /** The wrapped value, or `default` when absent. */
    function GetOr(default: T): T {
      match this
      case Some(v) => v
      case None => default
    }
  }
}
